=== FILE: README.md ===
# buzz-server core in Dafny

A model of the decision logic of buzz-server, a chat backend. The model covers:

- the session registry the server keeps in Redis: which sockets each user has open, and each socket's owner, visibility and last-seen time;
- the socket connection lifecycle and presence broadcasts;
- posting a status (a 24-hour story) and delivering it to mutual contacts;
- the status feed and the upload-folder rule;
- the contact-edge writes, the OTP check, the register input checks, and refresh/access token extraction;
- the repair of stored message attachments, and the message page flags;
- the settings patch;
- the stateless WebRTC call relay.

Every handler is a pure function, or a method with a loop, from the current state to its reply, the new state and what it emitted. The state consists of:

- the key-value store (`Registry.Store`);
- the contact collection, a sequence of `Contacts.Edge`;
- the status collection, a sequence of `Schemas.Story`;
- the settings collection, a map from user to `Schemas.Setting`.

The current time, generated ids, the JWT verifier, the URL hostname parser and the e-mail normaliser are parameters. A socket-level fan-out is a *set* of emissions, because Redis set members have no order. Global broadcasts and relay emissions are *sequences*.

Modules, following the source layout:

- `Base`, `JsValues`, `Text`, `Sorting`: shared vocabulary. This covers JS truthiness and `String()`, splitting and joining, and a key-ordered insertion sort.
- `Registry`: utils/redis-helpers.js.
- `Events`: the socket.io events and targets.
- `Contacts`: contact edges; `addContact`, `blockContact` and `getContactsForUser`.
- `Presence`: sockets/index.js.
- `Schemas`: models/statuses.model.js and models/settings.model.js.
- `StatusPost`: sockets/status.js.
- `Upload`: controllers/upload.controller.js.
- `Users`: controllers/users.controller.js, covering OTP, register and tokens.
- `Messages`: controllers/messages.controller.js.
- `Settings`: controllers/settings.controller.js.
- `Call`: sockets/call.js.

Where the prose description of the system and the code differ, the model follows the code:

- A status post with incomplete media is rejected with the ack error `"media is required"`, not a `media_required` code.
- A successful post acks status `"ok"` when nobody has added the poster, and `"success"` otherwise.
- The global `presence:update {online: true}` broadcast happens on every connection, not only on the first device.
- `verifyOTP` sets `isNewUser` to true when a user with the e-mail already EXISTS. The flag's name is the reverse of what it holds, and the model keeps the code's meaning. Access and refresh tokens are issued only in that case. The handler sets the refresh-token cookie as soon as the user is found, before it reads the stored code (see Findings).
- `updateSettings` never changes `updatedAt`. The settings schema has no automatic timestamps, and the `$set` patch does not name the field.
- The handshake's `headers.userId` is read as written. Node lower-cases header names, so in practice that lookup never finds anything; the model keeps it as a third input.

## Model

| member | source | states |
|---|---|---|
| Registry.AddSocketForUser | utils/redis-helpers.js:3-10 | The user's socket set gains the socket with set semantics, so re-adding a member changes nothing. Other users' sets are unchanged. The socket's hash names the user, is visible and carries the time. Other hashes are untouched. |
| Registry.RemoveSocket | utils/redis-helpers.js:12-22 | The socket's hash is always deleted. Without a hash or a truthy owner, no set changes. Otherwise the socket leaves exactly its owner's set and every other set is unchanged. |
| Registry.SetSocketVisibility | utils/redis-helpers.js:24-29 | Only `visible` and `lastSeen` of one hash are written, creating the hash without an owner if it was missing. No socket set changes. |
| Registry.MembersAgreeWithMeta | utils/redis-helpers.js:31-34 | An absent set reads as empty. Under the registry invariant, the members of a user's set are exactly the sockets whose hash names that user. |
| Registry.AnySocketVisibleForUser | utils/redis-helpers.js:36-49 | False for a user without sockets. Otherwise true iff some listed socket's hash has `visible` set. |
| Registry.GetUserSocketMeta | utils/redis-helpers.js:51-57 | One entry per listed socket, holding that socket's hash when it exists. |
| Registry.SocketMetaNamesUser | utils/redis-helpers.js:51-57 | Under the invariant, every entry is present and names the user asked about. |
| Registry.EmptyStoreWf | utils/redis-helpers.js:3-29 | The empty store satisfies the registry invariant: no empty sets, and set membership agrees with hash ownership. |
| Registry.AddPreservesWf | utils/redis-helpers.js:3-10 | Registering a socket for a non-empty user id keeps the invariant, unless the socket id is already owned by someone else. |
| Registry.RemovePreservesWf | utils/redis-helpers.js:12-22 | Removing a socket keeps the invariant, including deleting a set that becomes empty. |
| Registry.SetVisibilityPreservesWf | utils/redis-helpers.js:24-29 | A visibility update keeps the invariant. |
| Registry.RemoveIdempotent | utils/redis-helpers.js:12-22 | A second removal of the same socket changes nothing further. |
| Registry.AddRemoveRoundTrip | utils/redis-helpers.js:3-22 | Adding a fresh socket and removing it again restores the entire store. |
| Registry.PairsRestoreStore | utils/redis-helpers.js:3-22 | Any number of add/remove pairs with fresh ids restores the store, so a user who had no sockets ends with count 0. |
| Presence.ResolveIdentity | sockets/index.js:25-29 | The identity is the first truthy of auth, query and header user id, converted to a string, and never empty. Absent exactly when none is truthy. |
| Presence.OnlineFanOutReachesContacts | sockets/index.js:44-54 | Corrected fan-out, read against the socket hashes: under the registry invariant an emission is produced iff it is an online update for the connecting user, sent to a socket whose hash names a registered user that one of the user's edges points at. |
| Presence.Connect | sockets/index.js:20-54 | With no identity: nothing is registered, emitted or installed. With an identity: the socket is registered, one global online broadcast is made, and handlers are installed. The contact fan-out reaches every socket of every user the connecting user added, and runs only when the user's count is 1 afterwards. |
| Presence.FanOutOnlyOnFirstDevice | sockets/index.js:35-45 | With a fresh socket id, the count after connecting is 1 iff the user had no socket before. Any delivery implies the user had no socket before. |
| Presence.OnVisibility | sockets/index.js:39-42 | A missing or null payload throws while destructuring and writes nothing. Otherwise `!!visible` is stored for the socket, without touching any socket set. |
| Presence.OnPing | sockets/index.js:56-62 | Acks `{ok: true, ts: now}` exactly when an ack callback is present. |
| Presence.Disconnect | sockets/index.js:67-76 | The socket is deregistered. Exactly when no socket is left, the offline marker is set to expire 60 s later and one global offline broadcast is made. Otherwise nothing is emitted and the marker is unchanged. |
| Presence.OfflineOnlyOnLastDevice | sockets/index.js:67-76 | Dropping one of several devices broadcasts nothing. Dropping the last one broadcasts offline exactly once. |
| Presence.TwoDeviceScenario | sockets/index.js:33-76 | Two devices connect and then disconnect. Both connects broadcast online, only the second disconnect broadcasts offline, and the registry ends empty. |
| Presence.AsWrittenFanOutReachesNobody | sockets/index.js:44-54 | The loop as written looks up socket sets keyed by edge documents, so it reaches nobody when user ids are ordinary ids. |
| Presence.AsWrittenFanOutMissesContact | sockets/index.js:44-54 | A concrete store: the written loop delivers nothing, while the corrected fan-out reaches the contact's device. |
| Events.FanOutOnePerSocket | sockets/status.js:91-103 | A fan-out delivers the event once to each socket of the set: there are exactly as many deliveries as sockets. |
| Contacts.PeopleWhoAdded | sockets/status.js:48-51 | No duplicates. A user is listed iff they own an unblocked edge pointing at the poster. |
| Contacts.AddedAmong | sockets/status.js:71-75 | No duplicates. A user is listed iff the poster has an unblocked edge to them and they are among the given users. |
| Contacts.MutualContacts | sockets/status.js:48-75 | No duplicates. A user is listed iff each of the two has an unblocked edge to the other. |
| Contacts.GetContactsForUser | controllers/users.controller.js:396-403 | Exactly the edges the user owns, matched or not, blocked or not. |
| Contacts.AddContact | controllers/users.controller.js:267-307 | A falsy normalised e-mail gives 400. Otherwise the saved edge has the owner and e-mail. It has the local name sent, or keeps the stored one when an existing edge is re-added without a name. `contactUser` is the registered id or null, and `matched` holds iff a user has that e-mail. |
| Contacts.AddContactUpserts | controllers/users.controller.js:282-298 | The upsert keeps at most one edge per (owner, e-mail). Other edges stay in place. An existing edge keeps its block flag and creation time. A new key appends one unblocked edge. |
| Contacts.BlockContact | controllers/users.controller.js:368-389 | A falsy e-mail gives 404. Otherwise the reply carries an edge iff an edge with key (owner, e-mail) exists; with none, `null` is returned and nothing is inserted. The returned edge is blocked and has the owner and e-mail asked for. |
| Contacts.BlockContactOnlyFlags | controllers/users.controller.js:374-383 | Blocking rewrites exactly the first edge with the key, to the same edge with `isBlocked` true and `updatedAt` now. Every other edge is unchanged, and with no such edge the collection is unchanged. Keys stay unique. |
| Contacts.BlockNeverAdds | controllers/users.controller.js:374-383 | Blocking only removes relations: whoever adds somebody afterwards added them before, and every mutual pair afterwards was mutual before. |
| Schemas.CreateStory | models/statuses.model.js:4-26 | A record is created iff userId, publicId and url are non-empty and the resource type (default "image") is image or video. The caption defaults to "", viewers to [] and createdAt to now. |
| Schemas.StoryDefaults | models/statuses.model.js:17-25 | A status created without type or caption is an "image" with an empty caption and no viewers. |
| Schemas.CastString | models/statuses.model.js:11-16 | The cast to a `String` path. Undefined and null leave the path unset. An object becomes its `_id` when that is a non-empty string, and is a cast error otherwise. Anything else is stored as its `String()` conversion. |
| Schemas.CastTruthyIsPresent | models/statuses.model.js:11-16 | A truthy non-object casts to a non-empty string, so it meets `required`, and a string casts to itself. |
| Schemas.DefaultSetting | models/settings.model.js:4-14 | A new record has notifications on, theme "dark" and language "en", is valid for a non-empty user, and is stamped now. |
| StatusPost.Validate | sockets/status.js:8-46 | The checks run in order. No identity gives "unauthenticated". No media, or media without type/url/publicId, gives "media is required". An unparsable url or a foreign host gives "invalid_media_url". A type other than image/video gives "unsupported_media_type". Accepted iff all checks pass. |
| StatusPost.AcceptedIsStorable | sockets/status.js:41-85 | An accepted post whose fields cast always passes the status schema's validators. |
| StatusPost.FieldsOf | sockets/status.js:77-85 | The cast of `create`'s fields fails iff the user id is not an ObjectId or publicId, url or thumbUrl is an object. Otherwise publicId and url are stored as their string conversions, thumbUrl as its string conversion or absent when undefined or null, and the expiry is 24 h after now. |
| StatusPost.NotifyMutuals | sockets/status.js:87-104 | Every socket of every listed user gets the event. Recipients have no duplicates and are exactly the listed users who have at least one socket. |
| StatusPost.PostStatus | sockets/status.js:6-109 | A rejected post persists and delivers nothing, and so does an accepted post whose fields fail the schema cast: the reply is the error ack. Otherwise the story is appended once, with every field as cast and expiry 24 h after now. The status is "ok" with no recipients when nobody added the poster. Otherwise it is "success", with delivery to every socket of every mutual contact and deduplicated recipients. |
| StatusPost.OneWayNobodyAddedPoster | sockets/status.js:48-53 | With only A's edge to B, nobody has added A. |
| StatusPost.BothWaysOnlyB | sockets/status.js:48-75 | With edges in both directions, B is A's only mutual contact. |
| StatusPost.ScenarioPayloadAccepted | sockets/status.js:17-46 | A complete image payload on a cloudinary host passes the chain. |
| StatusPost.MutualityScenario | sockets/status.js:48-105 | A one-way edge gives "ok" with no recipients and no delivery. Once B adds A back, the recipients are exactly [B] and B's socket receives the story. |
| Upload.GetSigned | controllers/upload.controller.js:9-20 | No user id gives the 404 error. The folder is the given folder (when truthy) or the uploads folder, then "/", then the user id. The timestamp is the current time in whole seconds, rounded down. |
| Upload.SignedFolderEndsWithUser | controllers/upload.controller.js:16-20 | The signed folder's last path segment is the user id. |
| Upload.ActiveOf | controllers/upload.controller.js:76-84 | Exactly the owner's statuses with `expiresAt > now`, each from the collection. |
| Upload.ViewerContacts | controllers/upload.controller.js:56-59 | No duplicates. A user is listed iff the viewer has an unblocked edge to them. |
| Upload.ContactsWhoAdded | controllers/upload.controller.js:64-71 | No duplicates. A user is listed iff they are among the contacts and have an unblocked edge to the viewer. |
| Upload.FeedMutualsAreMutual | controllers/upload.controller.js:56-71 | The feed's second query yields exactly the viewer's mutual contacts. |
| Upload.Mine | controllers/upload.controller.js:152-156 | The viewer's own active statuses, newest first: a permutation of the active ones and nothing else. |
| Upload.TakeKeepsNewest | controllers/upload.controller.js:85-113 | A status left out of the 10-slice is no newer than any status kept. |
| Upload.ReverseNewestIsOldest | controllers/upload.controller.js:148 | Reversing a newest-first slice gives oldest-first. |
| Upload.NewestSlice | controllers/upload.controller.js:113 | A group shows at most 10 statuses, or all of them when there are fewer. |
| Upload.NewestSliceShape | controllers/upload.controller.js:85-148 | The shown statuses are active ones in oldest-to-newest order, and none left out is newer than one shown. |
| Upload.LatestIsNewest | controllers/upload.controller.js:85-89 | A group's `latest` is the largest `createdAt` of its active statuses and belongs to one of them. |
| Upload.DisplayName | controllers/upload.controller.js:144 | Always truthy: the profile's name when truthy, otherwise "Unknown". |
| Upload.ProfilePic | controllers/upload.controller.js:145 | Null iff the owner has no truthy picture. Otherwise the picture. |
| Upload.MakeGroup | controllers/upload.controller.js:142-149 | A group belongs to its owner, and `total` counts all of the owner's active statuses. |
| Upload.GroupShape | controllers/upload.controller.js:85-149 | The group's latest, its capped oldest-first slice, its total, its name and its picture, as one property. |
| Upload.VisibleGroups | controllers/upload.controller.js:76-149 | Groups are sorted by latest, descending, with one per owner. Each group is a mutual's group with an active status, and every mutual with an active status gets one. |
| Upload.GetStatusesAsWritten | controllers/upload.controller.js:50-158 | As written: with no mutual contact both lists are empty. Otherwise `mine` is the viewer's own active statuses, and only mutuals appear in `visible`. |
| Upload.GetStatuses | controllers/upload.controller.js:50-158 | Corrected: `mine` is always the viewer's own active statuses. `visible` holds a group for exactly the mutuals with an active status, ordered by latest. |
| Upload.AsWrittenAgreesWithMutuals | controllers/upload.controller.js:61-74 | With at least one mutual contact, the written handler and the corrected one agree. |
| Upload.AsWrittenHidesOwnStory | controllers/upload.controller.js:61-74 | A viewer with no contacts and one active status gets an empty `mine` from the written handler, while the corrected one returns that status. |
| Users.VerifyOtp | controllers/users.controller.js:62-117 | Corrected handler. A missing otp or e-mail gives 400, and an unverifiable token 500 "Invalid Token". Past those, exactly: no stored code gives 401 expired, a matching code deletes the key and returns 200 with `isNewUser` true iff the user exists, and a mismatch gives 401 and keeps the key. The refresh cookie is set iff the reply is 200 and issues tokens. |
| Users.VerifyOtpAsWritten | controllers/users.controller.js:69-109 | As written, the refresh cookie is decided before the stored code is read: it is set only for a verified e-mail of an existing user. |
| Users.AsWrittenDiffersOnlyInCookie | controllers/users.controller.js:69-109 | The handler as written gives the same reply and store as the corrected one. Its cookie is set on every reply past the signature check (401 expired, 401 incorrect, 200) iff the user exists. |
| Users.AsWrittenCookieOnWrongOtp | controllers/users.controller.js:79-109 | A wrong code for an existing user is refused with 401 "Incorrect OTP", yet the handler as written sets the refresh cookie. The corrected handler does not. |
| Users.OtpSingleUse | controllers/users.controller.js:93-107 | After a successful check, the same code is refused as expired. |
| Users.OtpRetryAfterMismatch | controllers/users.controller.js:93-109 | A wrong code does not consume the stored one, so the right code still succeeds afterwards. |
| Users.MatchesEmailPattern | controllers/users.controller.js:139 | Decides `^[^\s@]+@[^\s@]+\.[^\s@]+$` exactly: true iff the pattern predicate holds. |
| Users.Register | controllers/users.controller.js:119-145 | 400 with per-field details iff the e-mail or display name is falsy. A verified (or raw) e-mail that is not a string, or does not match the pattern, gives "Invalid email format". Otherwise a user is created with that e-mail. |
| Users.EmailPatternExamples | controllers/users.controller.js:139 | "a@b.co" matches and "a@b.c d" does not. |
| Users.CookieValue | controllers/users.controller.js:193-194 | The value after `refreshToken=` up to the next "=". It contains no "=". |
| Users.CookieValueRoundTrip | controllers/users.controller.js:193-194 | `refreshToken=` followed by a token without "=" gives back the token. |
| Users.HeaderToken | controllers/users.controller.js:191-194 | Present iff the header exists and has an entry starting with `refreshToken=`. The value has no "=" and is read from the first such entry: that entry starts with `refreshToken=` plus the value, followed by "=" or by nothing. |
| Users.HeaderTokenRoundTrip | controllers/users.controller.js:191-194 | A cookie header built from entries, where the first refresh entry holds the token, gives back that token. |
| Users.RefreshTokenOf | controllers/users.controller.js:190-195 | The parsed cookie wins when it is a string. Otherwise the token comes from the raw header. |
| Users.Refresh | controllers/users.controller.js:189-217 | No token gives 401. Otherwise the token check decides between 401 expired, 500 invalid, 404 unknown user, or a new access token. |
| Users.CheckToken | controllers/users.controller.js:199-216 | An expired token gives 401 and any other failure 500. A valid token for an unknown e-mail gives 404. Otherwise the request is authorised for that e-mail. |
| Users.BearerToken | controllers/users.controller.js:221-229 | A header missing or not starting with "Bearer " gives no token. Otherwise the token is the text between the first and second space, and must be non-empty. |
| Users.BearerRoundTrip | controllers/users.controller.js:221-229 | "Bearer " + token (optionally followed by a space and more) gives back a non-empty, space-free token. |
| Users.FetchUser | controllers/users.controller.js:219-242 | A malformed header or an empty token gives 401. Otherwise the same token check as refresh applies. |
| Messages.FormatOf | controllers/messages.controller.js:19 | Undefined, or a non-empty run of lower-case letters and digits. |
| Messages.FormatFrom | controllers/messages.controller.js:19 | The capture of the leftmost position where the pattern matches, or none when it matches nowhere. |
| Messages.RepairedShape | controllers/messages.controller.js:17-38 | A repaired object reads back its url, the url's format and (when truthy) the `_id`. It holds no character fields. |
| Messages.NormalizeOne | controllers/messages.controller.js:12-44 | A well-shaped object or a non-object is kept. A string becomes its `{url, format}`. An object with digit keys becomes the url those values spell in numeric key order, keeping a truthy `_id`. An object without digit keys is kept. |
| Messages.NormalizeAttachments | controllers/messages.controller.js:10-45 | A non-array gives []. An array gives the same number of items, each repaired. |
| Messages.RepairedIsStable | controllers/messages.controller.js:14 | A repaired object is left alone by a second repair. |
| Messages.NormalizeOneIdempotent | controllers/messages.controller.js:10-45 | Repairing twice equals repairing once. |
| Messages.NormalizeAttachmentsIdempotent | controllers/messages.controller.js:10-45 | Normalising a normalised list changes nothing. |
| Messages.SpreadStringRepaired | controllers/messages.controller.js:23-39 | A URL that was spread into `{"0": c0, "1": c1, ...}` is repaired back to that URL and its format. |
| Messages.Selected | controllers/messages.controller.js:70-75 | Exactly the stored messages of the conversation, with id below the cursor when one is given. |
| Messages.Limited | controllers/messages.controller.js:76 | Limit 0 means all messages. Otherwise a prefix whose length is the smaller of the count and the absolute value of the limit. |
| Messages.GetMessages | controllers/messages.controller.js:66-94 | The limit is the query's, or 20 when absent. The page is the limited selection with attachments normalised. `hasMore` holds iff the page length equals the limit. `nextCursor` is the first message's id, or null on an empty page. |
| Messages.HasMoreMeansFull | controllers/messages.controller.js:69-92 | With a positive or default limit, a page without `hasMore` holds every selected message, and a page with it means at least `limit` were selected. |
| Settings.PatchKeys | controllers/settings.controller.js:13-18 | The keys of a patch are a subset of notification/theme/language, each present iff set. |
| Settings.BuildPatch | controllers/settings.controller.js:13-18 | The patch is empty iff all three body values are undefined. Each key that is set carries the body's value. |
| Settings.ApplyPatch | controllers/settings.controller.js:23-30 | `$set` replaces exactly the patched fields. Owner and timestamps are unchanged. |
| Settings.UpdateSettings | controllers/settings.controller.js:4-37 | An unknown user gives 404 with no write. An empty patch gives 400 with no write. Otherwise the record (or the defaults, for a new user) takes the defined values, other fields are kept, and only that user's record changes. |
| Settings.GetSettings | controllers/settings.controller.js:39-52 | An unknown user gives 404. Otherwise the user's stored record, or null when there is none. |
| Settings.UpdateKeepsStoreValid | controllers/settings.controller.js:23-30 | Updates with admissible values keep every record keyed by its user and valid for the schema. |
| Settings.UpdateThenGet | controllers/settings.controller.js:23-47 | After an update, reading returns the updated record. Other users read what they read before. |
| Settings.UpdateIdempotent | controllers/settings.controller.js:23-30 | Sending the same body twice leaves the store as the first request left it. |
| Call.Relay | sockets/call.js:2-34 | Every emission goes to room `to` and carries `from`. An offer emits two events, and the first is `call:incoming` with the caller and call type. The other handlers emit one event. |
| Call.Handle | sockets/call.js:2-34 | A missing or null payload throws while destructuring and emits nothing. A present payload is relayed. |
| Call.RelayRoundTrip | sockets/call.js:2-34 | The last emitted event gives back which handler sent it and every field that handler read, and its target gives back `to`. An offer's first event is the ring, with the caller and the call type. |
| Call.RelayDependsOnlyOnPayload | sockets/call.js:1-35 | Payloads that agree on what a handler reads produce identical emissions, so the relay keeps no state. |

## Left out

- I/O is not modelled: Express, socket.io delivery, the Redis adapter, the connection setup in server.js, route tables and cookie options. Handlers are one atomic step. Interleavings of concurrent connects and disconnects are not modelled.
- Foreign calls are parameters: the JWT sign/verify (`verify`, `check`), cloudinary request signing, Brevo e-mail, the OTP generator, the e-mail normaliser, the WHATWG URL parser (`hostOf`) and Mongoose's ObjectId cast (`isObjectId`).
- get_refresh_token.js, utils/email.js, `sendOTP`, `findUserByEmail`, `getContactList` and `getConversations` are not part of this model. They are plumbing or a database query with no decision logic.
- Mongo aggregation, `.populate` and the projection of returned documents are not modelled. Queries are list and set comprehensions over the collections. Redis TTL expiry is only recorded as an expiry time.
- Dates are integer milliseconds. ISO formatting and `Date` objects are not modelled. Numbers are integers, so NaN limits and non-integer ids are not modelled.
- Messages.Limited: `Number(limit)` of a non-numeric query string is NaN, and the model has no such value.
- Lower-casing is ASCII only (`Text.ToLower`), not the full Unicode `toLowerCase`.
- Messages.NormalizeOne: objects are assumed to have distinct keys, as JS objects do, and the order of fields whose keys have equal numeric values (e.g. "1" and "01") follows the model's stable insertion sort rather than being left unspecified.
- Contacts.AddContact: Mongoose 6 or later is assumed. It drops `undefined` keys from `$set`, so re-adding without a local name keeps the stored one, and it applies schema defaults on an upsert's insert, so a new edge starts unblocked. An explicit `null` local name is not told apart from an absent one.
- Schema type casting of settings is not modelled: Mongoose casting a settings value such as "true" to a Boolean. The stored value is the body's value. Status fields are cast (`Schemas.CastString`).
- StatusPost.PostStatus: the caption is taken to be a string or absent, so a non-string caption's cast is not modelled. A failed cast of the user id is modelled at `create`; an earlier failure in the contact queries, whose schema is not part of this model, ends in the same error ack with nothing stored or delivered.
- The vestigial `io.userSockets` map and the per-client-version shape adaptation of pipeline results in utils/redis-helpers.js are not modelled.
- The `catch` branches that answer 500 for a failed database call are not modelled, apart from the status handler's crash on a missing payload or a failed cast (`Crashed`). A missing payload of the call relay (`Call.Handle`) and of the visibility handler (`Presence.OnVisibility`) is modelled as a throw that emits and writes nothing.
- Users.VerifyOtp: the 500 "An error occured" reply when deleting the key reports nothing is not modelled. Within one atomic step the key that was just read always deletes.
- Registry.AnySocketVisibleForUser: the search is over the set, so it does not fix the order the pipeline reads the hashes in. Only the result is stated.
- Presence.OnlineFanOut is the corrected fan-out. The loop as written is `Presence.OnlineFanOutAsWritten` (see Findings).
- Presence.Connect: composes the corrected fan-out (`Presence.OnlineFanOut`), not the loop as written, so its delivery clause states what the code evidently intends rather than what it does (see Findings).
- Presence.ResolveIdentity: arrays are not modelled. Every object converts to "[object Object]", while in JavaScript `String([])` is "" and `String(["u1"])` is "u1".
- Users.VerifyOtp: the token generators are assumed to succeed, so the cookie guard `accessToken && refreshToken` is taken as true; the refresh token's storage in the user record is not modelled.

## Findings

| source | as written | input that shows it | evidently intended | confidence | as-written member | corrected member |
|---|---|---|---|---|---|---|
| sockets/index.js:44-54 | The first-device fan-out iterates the edge documents returned by `getContactsForUser` and reads `user:${contactId}:sockets` with the whole document interpolated, so it looks up a key that never exists. | A owns one edge to B, and B has socket sB online. A connects for the first time: the loop delivers nothing. | Look up each edge's `contactUser` and notify every socket of that user. | not executed | Presence.OnlineFanOutAsWritten, Presence.AsWrittenFanOutMissesContact | Presence.OnlineFanOut, Presence.OnlineFanOutReachesContacts |
| controllers/users.controller.js:79-109 | The refresh-token cookie is set right after the user lookup, before the stored code is read, so a 401 "Invalid or expired otp" or "Incorrect OTP" reply still carries a fresh refresh token for an existing user. | Existing user a@b.c with stored code 123 sends code 999: the reply is 401 "Incorrect OTP" with the cookie set. | Set the cookie only on the 200 reply that hands out the tokens. | not executed | Users.VerifyOtpAsWritten, Users.AsWrittenCookieOnWrongOtp | Users.VerifyOtp |
| controllers/upload.controller.js:61-62, 73-74 | When the viewer has no contacts or no mutual contacts, `getStatuses` returns early with `mine: []`, even if the viewer has active statuses of their own. | Viewer A has no contacts and one status expiring in the future: the reply's `mine` is empty. | `mine` always lists the viewer's own active statuses; only `visible` depends on mutuality. | not executed | Upload.GetStatusesAsWritten, Upload.AsWrittenHidesOwnStory | Upload.GetStatuses |

=== FILE: base.dfy ===
/** Small shared vocabulary: an optional value and the sequence helpers
    (filter, map, first-occurrence de-duplication) that the query helpers of
    the server are built from. */
module Base {

  datatype Option<+T> = None | Some(value: T) {
    function GetOr(default: T): T {
      match this
      case Some(v) => v
      case None => default
    }
  }

  /** A value or the reason there is none. */
  datatype Result<+T, +E> = Ok(value: T) | Err(error: E)

  /** No element occurs twice. */
  predicate NoDup<T(==)>(s: seq<T>) {
    forall i, j :: 0 <= i < j < |s| ==> s[i] != s[j]
  }

  /** The elements of `s` that satisfy `p`, in their original order. */
  function Filter<T(!new)>(s: seq<T>, p: T -> bool): (r: seq<T>)
    ensures |r| <= |s|
    ensures forall x :: x in r <==> x in s && p(x)
    ensures forall i :: 0 <= i < |r| ==> p(r[i])
    ensures multiset(r) <= multiset(s)
  {
    if |s| == 0 then []
    else
      assert s == [s[0]] + s[1..];
      if p(s[0]) then [s[0]] + Filter(s[1..], p) else Filter(s[1..], p)
  }

  /** Filtering distributes over concatenation. */
  lemma {:induction false} FilterAppend<T(!new)>(a: seq<T>, b: seq<T>, p: T -> bool)
    ensures Filter(a + b, p) == Filter(a, p) + Filter(b, p)
  {
    if |a| == 0 {
      assert a + b == b;
    } else {
      assert (a + b)[1..] == a[1..] + b;
      FilterAppend(a[1..], b, p);
    }
  }

  /** Nothing passes the filter when no element satisfies `p`. */
  lemma {:induction false} FilterNone<T(!new)>(s: seq<T>, p: T -> bool)
    requires forall i :: 0 <= i < |s| ==> !p(s[i])
    ensures Filter(s, p) == []
  {
    if |s| > 0 {
      FilterNone(s[1..], p);
    }
  }

  /** Applies `f` to every element, keeping the order. */
  function MapSeq<T, U>(s: seq<T>, f: T -> U): (r: seq<U>)
    ensures |r| == |s|
    ensures forall i :: 0 <= i < |s| ==> r[i] == f(s[i])
  {
    if |s| == 0 then [] else [f(s[0])] + MapSeq(s[1..], f)
  }

  /** The distinct elements of `s`, each at the place of its first
      occurrence. This is what a `distinct` query over a collection yields. */
  function Distinct<T(==,!new)>(s: seq<T>): (r: seq<T>)
    ensures NoDup(r)
    ensures forall x :: x in r <==> x in s
    ensures |r| <= |s|
  {
    if |s| == 0 then []
    else
      var rest := Distinct(s[..|s| - 1]);
      if s[|s| - 1] in rest then rest else rest + [s[|s| - 1]]
  }

  /** The first `n` elements, or all of them when there are fewer. */
  function Take<T>(s: seq<T>, n: nat): (r: seq<T>)
    ensures |r| == if |s| < n then |s| else n
    ensures r <= s
  {
    if |s| <= n then s else s[..n]
  }

  function Reverse<T>(s: seq<T>): (r: seq<T>)
    ensures |r| == |s|
    ensures forall i :: 0 <= i < |s| ==> r[i] == s[|s| - 1 - i]
  {
    if |s| == 0 then [] else Reverse(s[1..]) + [s[0]]
  }

  lemma ReverseMultiset<T>(s: seq<T>)
    ensures multiset(Reverse(s)) == multiset(s)
  {
    if |s| > 0 {
      ReverseMultiset(s[1..]);
      assert s == [s[0]] + s[1..];
    }
  }

  /** Without duplicates, every value occurs at most once. */
  lemma {:induction false} NoDupCount<T>(s: seq<T>, x: T)
    requires NoDup(s)
    ensures multiset(s)[x] <= 1
  {
    if |s| > 0 {
      assert s == [s[0]] + s[1..];
      assert NoDup(s[1..]) by {
        forall i, j | 0 <= i < j < |s[1..]|
          ensures s[1..][i] != s[1..][j]
        {
          assert s[1..][i] == s[i + 1] && s[1..][j] == s[j + 1];
        }
      }
      NoDupCount(s[1..], x);
      if s[0] == x {
        assert forall k :: 0 <= k < |s[1..]| ==> s[1..][k] == s[k + 1] && s[k + 1] != s[0];
        assert multiset(s[1..])[x] == 0;
      }
    }
  }

  /** Two positions holding the same value make it occur twice. */
  lemma CountAtTwoPositions<T>(s: seq<T>, i: nat, j: nat)
    requires i < j < |s|
    ensures multiset(s)[s[i]] >= if s[j] == s[i] then 2 else 1
  {
    assert s == s[..j] + [s[j]] + s[j + 1..];
    assert s[..j][i] == s[i];
    assert multiset(s[..j])[s[i]] >= 1;
  }

  /** A sub-multiset (a permutation, or a filtered copy) of a sequence
      without duplicates has none either. */
  lemma NoDupPermutation<T>(a: seq<T>, b: seq<T>)
    requires NoDup(a) && multiset(b) <= multiset(a)
    ensures NoDup(b)
  {
    forall i, j | 0 <= i < j < |b|
      ensures b[i] != b[j]
    {
      CountAtTwoPositions(b, i, j);
      NoDupCount(a, b[i]);
    }
  }

  /** The position of the first occurrence of `x` in `s`. */
  function IndexOf<T(==)>(s: seq<T>, x: T): (i: nat)
    requires x in s
    ensures i < |s| && s[i] == x
    ensures forall k :: 0 <= k < i ==> s[k] != x
  {
    if s[0] == x then 0 else 1 + IndexOf(s[1..], x)
  }

  /** Where the element at position `k` of `a` sits in a permutation `b`. */
  function Counterpart<T(==)>(a: seq<T>, b: seq<T>, k: nat): (i: nat)
    requires multiset(a) == multiset(b) && k < |a|
    ensures i < |b| && b[i] == a[k]
  {
    assert a[k] in multiset(a);
    assert a[k] in b;
    IndexOf(b, a[k])
  }
}

=== FILE: call.dfy ===
/** The call signalling relay of sockets/call.js. Each of the four handlers
    forwards what the caller sent to the room the caller named in `to`,
    with no server state and no check of who may call whom. */
module Call {
  import opened Base
  import opened JsValues
  import opened Events

  /** A relay event's payload: the fields the handlers destructure, each
      `undefined` when the client left it out. */
  datatype Inbound = Inbound(to: JsVal, from: JsVal, body: JsVal, callType: JsVal)

  datatype Kind = Offer | Answer | IceCandidate | End

  /** The emissions a relay event produces, in emission order. An offer
      rings the room (`call:incoming`) before it forwards the offer; the
      other three forward one event each. `body` is the offer, the answer
      or the candidate; `call:end` carries only `from`. */
  function Relay(kind: Kind, m: Inbound): (r: seq<Emission>)
    ensures |r| == if kind == Offer then 2 else 1
    ensures forall i :: 0 <= i < |r| ==> r[i].target == ToRoom(m.to)
    ensures forall i :: 0 <= i < |r| ==> EventFrom(r[i].event) == m.from
    ensures kind == Offer ==> r[0].event == CallIncoming(m.from, m.callType)
  {
    match kind
    case Offer =>
      [Emission(ToRoom(m.to), CallIncoming(m.from, m.callType)),
       Emission(ToRoom(m.to), WebrtcOffer(m.from, m.body, m.callType))]
    case Answer => [Emission(ToRoom(m.to), WebrtcAnswer(m.from, m.body))]
    case IceCandidate => [Emission(ToRoom(m.to), WebrtcIceCandidate(m.from, m.body))]
    case End => [Emission(ToRoom(m.to), CallEnd(m.from))]
  }

  /** A relay handler given its event argument, None when that is missing
      or null: destructuring it then throws inside the listener, so nothing
      is emitted. Otherwise the handler relays. */
  function Handle(kind: Kind, payload: Option<Inbound>): (r: seq<Emission>)
    ensures r == [] <==> payload.None?
    ensures payload.Some? ==> r == Relay(kind, payload.value)
  {
    match payload
    case None => []
    case Some(m) => Relay(kind, m)
  }

  /** The `from` every relayed event carries. */
  function EventFrom(e: Event): JsVal {
    match e
    case CallIncoming(f, _) => f
    case WebrtcOffer(f, _, _) => f
    case WebrtcAnswer(f, _) => f
    case WebrtcIceCandidate(f, _) => f
    case CallEnd(f) => f
    case _ => Undefined
  }

  /** What a receiver learns from one relayed event: which handler sent it
      and the payload with `to` dropped. The ring of an offer is not a
      relayed payload of its own. */
  function Recover(e: Event): (r: Option<(Kind, Inbound)>)
    ensures r.Some? ==> r.value.1.to == Undefined && r.value.1.from == EventFrom(e)
  {
    match e
    case WebrtcOffer(f, b, t) => Some((Offer, Inbound(Undefined, f, b, t)))
    case WebrtcAnswer(f, b) => Some((Answer, Inbound(Undefined, f, b, Undefined)))
    case WebrtcIceCandidate(f, b) => Some((IceCandidate, Inbound(Undefined, f, b, Undefined)))
    case CallEnd(f) => Some((End, Inbound(Undefined, f, Undefined, Undefined)))
    case _ => None
  }

  /** The fields a handler reads of its payload: an answer and a candidate
      ignore the call type, `call:end` also ignores the body. */
  function Read(kind: Kind, m: Inbound): Inbound {
    match kind
    case Offer => m.(to := Undefined)
    case Answer => m.(to := Undefined, callType := Undefined)
    case IceCandidate => m.(to := Undefined, callType := Undefined)
    case End => Inbound(Undefined, m.from, Undefined, Undefined)
  }

  /** Nothing is lost on the way: the last event of a relay gives back the
      handler and every field it read, its target gives back `to`, and an
      offer first rings the same room with the caller and the call type. */
  lemma RelayRoundTrip(kind: Kind, m: Inbound)
    ensures var r := Relay(kind, m);
      && Recover(r[|r| - 1].event) == Some((kind, Read(kind, m)))
      && r[|r| - 1].target == ToRoom(m.to)
    ensures var r := Relay(kind, m);
      kind == Offer ==> Recover(r[0].event).None? && r[0].event == CallIncoming(m.from, m.callType)
  {
  }

  /** Two payloads that agree on what a handler reads produce the same
      emissions, whoever sends them and however often: the relay keeps no
      state and does not look at the sender. */
  lemma RelayDependsOnlyOnPayload(kind: Kind, m1: Inbound, m2: Inbound)
    requires m1.to == m2.to && Read(kind, m1) == Read(kind, m2)
    ensures Relay(kind, m1) == Relay(kind, m2)
  {
  }
}

=== FILE: contacts.dfy ===
/** The contact collection: one directed edge "owner added the person with
    this email", optionally matched to a registered user (`contactUser`) and
    possibly blocked. The collection is a sequence in storage order. This
    module holds the edge writes of controllers/users.controller.js
    (`addContact`, `blockContact`, `getContactsForUser`) and the reads by
    edge direction that the story and feed code build mutuality from. */
module Contacts {
  import opened Base
  import opened JsValues
  import opened Registry

  datatype Edge = Edge(
    owner: UserId,
    email: string,
    contactUser: Option<UserId>,
    isBlocked: bool,
    localName: Option<string>,
    matchedAt: Option<int>,
    createdAt: int,
    updatedAt: int)

  /** `a` has an unblocked edge pointing at the registered user `b`. */
  ghost predicate Adds(edges: seq<Edge>, a: UserId, b: UserId) {
    exists e :: e in edges && e.owner == a && e.contactUser == Some(b) && !e.isBlocked
  }

  /** Each added the other and neither edge is blocked. */
  ghost predicate IsMutual(edges: seq<Edge>, a: UserId, b: UserId) {
    Adds(edges, a, b) && Adds(edges, b, a)
  }

  /** At most one edge per (owner, email) pair: the key `addContact`
      upserts on. */
  ghost predicate UniqueKeys(edges: seq<Edge>) {
    forall i, j :: 0 <= i < j < |edges| ==>
      !(edges[i].owner == edges[j].owner && edges[i].email == edges[j].email)
  }

  // ---------------------------------------------------------------------
  // Projections used by the `distinct` queries.

  /** The owners of the given edges, in order. */
  function OwnersOf(es: seq<Edge>): (r: seq<UserId>)
    ensures forall v :: v in r <==> exists e :: e in es && e.owner == v
  {
    if |es| == 0 then []
    else
      assert forall e :: e in es <==> e == es[0] || e in es[1..];
      [es[0].owner] + OwnersOf(es[1..])
  }

  /** The matched users the given edges point at, skipping unmatched
      (null) edges. */
  function TargetsOf(es: seq<Edge>): (r: seq<UserId>)
    ensures forall v :: v in r <==> exists e :: e in es && e.contactUser == Some(v)
  {
    if |es| == 0 then []
    else
      assert forall e :: e in es <==> e == es[0] || e in es[1..];
      var rest := TargetsOf(es[1..]);
      match es[0].contactUser
      case None => rest
      case Some(v) => [v] + rest
  }

  /** `distinct("owner", {contactUser: u, isBlocked: false})`: everybody who
      added `u` and has not blocked the edge. */
  function PeopleWhoAdded(edges: seq<Edge>, u: UserId): (r: seq<UserId>)
    ensures NoDup(r)
    ensures forall v :: v in r <==> Adds(edges, v, u)
  {
    var pointing := Filter(edges, (e: Edge) => e.contactUser == Some(u) && !e.isBlocked);
    Distinct(OwnersOf(pointing))
  }

  /** `distinct("contactUser", {owner: u, contactUser: {$in: among},
      isBlocked: false})`: the users `u` added, unblocked, that are listed
      in `among`. */
  function AddedAmong(edges: seq<Edge>, u: UserId, among: seq<UserId>): (r: seq<UserId>)
    ensures NoDup(r)
    ensures forall v :: v in r <==> Adds(edges, u, v) && v in among
  {
    var owned := Filter(edges, (e: Edge) =>
      e.owner == u && e.contactUser.Some? && e.contactUser.value in among && !e.isBlocked);
    Distinct(TargetsOf(owned))
  }

  /** The mutual contacts of `u` as the story handler computes them: the
      users `u` added (unblocked) among those who added `u` (unblocked). */
  function MutualContacts(edges: seq<Edge>, u: UserId): (r: seq<UserId>)
    ensures NoDup(r)
    ensures forall v :: v in r <==> IsMutual(edges, u, v)
  {
    AddedAmong(edges, u, PeopleWhoAdded(edges, u))
  }

  // ---------------------------------------------------------------------
  // Writes.

  /** Index of the edge with key (owner, email), if any. */
  function FindEdge(edges: seq<Edge>, owner: UserId, email: string): (r: Option<nat>)
    ensures r.Some? ==> r.value < |edges| && edges[r.value].owner == owner && edges[r.value].email == email
    ensures r.Some? ==> forall k :: 0 <= k < r.value ==> !(edges[k].owner == owner && edges[k].email == email)
    ensures r.None? ==> forall k :: 0 <= k < |edges| ==> !(edges[k].owner == owner && edges[k].email == email)
  {
    if |edges| == 0 then None
    else if edges[0].owner == owner && edges[0].email == email then Some(0)
    else match FindEdge(edges[1..], owner, email)
      case None => None
      case Some(k) => Some(k + 1)
  }

  /** `getContactsForUser`: every edge the user owns, matched or not,
      blocked or not, in storage order. */
  function GetContactsForUser(edges: seq<Edge>, u: UserId): (r: seq<Edge>)
    ensures forall e :: e in r <==> e in edges && e.owner == u
  {
    Filter(edges, (e: Edge) => e.owner == u)
  }

  datatype AddContactResult =
    | InvalidEmail                     // 400 "Invalid email"
    | Added(edges: seq<Edge>, saved: Edge, matched: bool)

  /** `addContact`: normalise the email (a falsy result is a 400), look the
      email up among registered users, then upsert the edge keyed on
      (owner, email): `localName`, `contactUser`, `matchedAt` and
      `updatedAt` are set, `createdAt` only on insert, and a new edge starts
      unblocked. `normalizedEmail` is what the email normaliser returned. */
  function AddContact(edges: seq<Edge>, users: map<string, UserId>, owner: UserId,
                      normalizedEmail: JsVal, localName: Option<string>, now: int)
    : (r: AddContactResult)
    ensures !Truthy(normalizedEmail) <==> r.InvalidEmail?
    ensures r.Added? ==>
      var email := ToStr(normalizedEmail);
      && r.saved.owner == owner && r.saved.email == email
      && r.saved.localName ==
           (if localName.None? && FindEdge(edges, owner, email).Some?
            then edges[FindEdge(edges, owner, email).value].localName else localName)
      && (r.matched <==> email in users)
      && r.saved.contactUser == (if email in users then Some(users[email]) else None)
      && r.saved in r.edges
  {
    if !Truthy(normalizedEmail) then InvalidEmail
    else
      var email := ToStr(normalizedEmail);
      var contactId := if email in users then Some(users[email]) else None;
      var matchedAt := if contactId.Some? then Some(now) else None;
      match FindEdge(edges, owner, email)
      case Some(i) =>
        var name := if localName.Some? then localName else edges[i].localName;
        var e := edges[i].(localName := name, contactUser := contactId,
                           matchedAt := matchedAt, updatedAt := now);
        assert edges[i := e][i] == e;
        Added(edges[i := e], e, contactId.Some?)
      case None =>
        var e := Edge(owner, email, contactId, false, localName, matchedAt, now, now);
        Added(edges + [e], e, contactId.Some?)
  }

  /** The upsert keeps at most one edge per key, leaves every edge with
      another key where it was, keeps an existing edge's block flag and
      creation time, and grows the collection only when the key was new. */
  lemma AddContactUpserts(edges: seq<Edge>, users: map<string, UserId>, owner: UserId,
                          normalizedEmail: JsVal, localName: Option<string>, now: int)
    requires UniqueKeys(edges)
    requires Truthy(normalizedEmail)
    ensures var r := AddContact(edges, users, owner, normalizedEmail, localName, now);
      var email := ToStr(normalizedEmail);
      && r.Added?
      && UniqueKeys(r.edges)
      && (forall k :: 0 <= k < |edges| && !(edges[k].owner == owner && edges[k].email == email) ==>
            k < |r.edges| && r.edges[k] == edges[k])
      && (FindEdge(edges, owner, email).Some? ==>
            var i := FindEdge(edges, owner, email).value;
            |r.edges| == |edges| && r.edges[i] == r.saved
            && r.saved.isBlocked == edges[i].isBlocked && r.saved.createdAt == edges[i].createdAt)
      && (FindEdge(edges, owner, email).None? ==>
            r.edges == edges + [r.saved] && !r.saved.isBlocked)
  {
  }

  datatype BlockResult =
    | EmailNotFound                    // 404 "Email not found"
    | BlockDone(edges: seq<Edge>, updated: Option<Edge>)

  /** `blockContact`: normalise the email (falsy is a 404), then set
      `isBlocked` on the existing (owner, email) edge. Nothing is inserted;
      when no edge has that key the reply carries `null`. */
  function BlockContact(edges: seq<Edge>, owner: UserId, normalizedEmail: JsVal, now: int)
    : (r: BlockResult)
    ensures !Truthy(normalizedEmail) <==> r.EmailNotFound?
    ensures r.BlockDone? ==>
      (r.updated.Some? <==> FindEdge(edges, owner, ToStr(normalizedEmail)).Some?)
    ensures r.BlockDone? ==> |r.edges| == |edges|
    ensures r.BlockDone? && r.updated.None? ==> r.edges == edges
    ensures r.BlockDone? && r.updated.Some? ==>
      r.updated.value.isBlocked && r.updated.value.owner == owner
      && r.updated.value.email == ToStr(normalizedEmail) && r.updated.value in r.edges
  {
    if !Truthy(normalizedEmail) then EmailNotFound
    else
      var email := ToStr(normalizedEmail);
      match FindEdge(edges, owner, email)
      case None => BlockDone(edges, None)
      case Some(i) =>
        var e := edges[i].(isBlocked := true, updatedAt := now);
        assert edges[i := e][i] == e;
        BlockDone(edges[i := e], Some(e))
  }

  /** Blocking rewrites exactly the edge `FindEdge` locates, setting its
      block flag and time and nothing else, and leaves every other edge as
      it was; with no such edge the collection is unchanged. */
  lemma BlockContactOnlyFlags(edges: seq<Edge>, owner: UserId, normalizedEmail: JsVal, now: int)
    requires UniqueKeys(edges)
    requires Truthy(normalizedEmail)
    ensures var r := BlockContact(edges, owner, normalizedEmail, now);
      && r.BlockDone?
      && UniqueKeys(r.edges)
      && (FindEdge(edges, owner, ToStr(normalizedEmail)).None? ==> r.edges == edges)
    ensures var r := BlockContact(edges, owner, normalizedEmail, now);
      var found := FindEdge(edges, owner, ToStr(normalizedEmail));
      found.Some? ==>
        var i := found.value;
        && r.updated == Some(edges[i].(isBlocked := true, updatedAt := now))
        && r.edges[i] == r.updated.value
        && (forall k :: 0 <= k < |edges| && k != i ==> r.edges[k] == edges[k])
  {
  }

  /** Blocking only takes relations away: whoever adds somebody afterwards
      added them before, so no mutual pair appears by blocking. */
  lemma BlockNeverAdds(edges: seq<Edge>, owner: UserId, normalizedEmail: JsVal, now: int,
                       a: UserId, b: UserId)
    requires Truthy(normalizedEmail)
    ensures var r := BlockContact(edges, owner, normalizedEmail, now);
      && (Adds(r.edges, a, b) ==> Adds(edges, a, b))
      && (IsMutual(r.edges, a, b) ==> IsMutual(edges, a, b))
  {
    var r := BlockContact(edges, owner, normalizedEmail, now);
    forall x, y | Adds(r.edges, x, y)
      ensures Adds(edges, x, y)
    {
      var e :| e in r.edges && e.owner == x && e.contactUser == Some(y) && !e.isBlocked;
      var j :| 0 <= j < |r.edges| && r.edges[j] == e;
      assert r.edges[j] == edges[j];
      assert edges[j] in edges;
    }
  }
}

=== FILE: events.dfy ===
/** What the socket layer sends: an event and where it goes (every
    connected client, one socket, or a room named by the sender). */
module Events {
  import opened Base
  import opened JsValues
  import opened Registry

  /** The `media` object of a `status:new` payload, forwarded verbatim in
      the `status:incoming` notice. */
  datatype Media = Media(resourceType: JsVal, url: JsVal, thumbUrl: JsVal, publicId: JsVal)

  /** The story as it is pushed to recipients. */
  datatype StoryNotice = StoryNotice(
    id: string, owner: UserId, caption: Option<string>, media: Media,
    createdAt: int, expiresAt: int)

  datatype Event =
    | PresenceUpdate(userId: UserId, online: bool)           // "presence:update"
    | StatusIncoming(story: StoryNotice)                     // "status:incoming"
    | CallIncoming(from: JsVal, callType: JsVal)             // "call:incoming"
    | WebrtcOffer(from: JsVal, offer: JsVal, callType: JsVal) // "webrtc:offer"
    | WebrtcAnswer(from: JsVal, answer: JsVal)               // "webrtc:answer"
    | WebrtcIceCandidate(from: JsVal, candidate: JsVal)      // "webrtc:ice-candidate"
    | CallEnd(from: JsVal)                                   // "call:end"

  datatype Target =
    | AllClients            // io.emit
    | ToSocket(sid: SocketId)  // io.to(socketId).emit
    | ToRoom(room: JsVal)      // io.to(to).emit with a client-supplied room

  datatype Emission = Emission(target: Target, event: Event)

  /** One event delivered to every socket in `sids`. */
  function FanOut(sids: set<SocketId>, ev: Event): (r: set<Emission>)
    ensures forall m :: m in r <==> m.event == ev && m.target.ToSocket? && m.target.sid in sids
  {
    set sid | sid in sids :: Emission(ToSocket(sid), ev)
  }

  /** Each socket of the set gets the event exactly once: there are as
      many deliveries as sockets. */
  lemma {:induction false} FanOutOnePerSocket(sids: set<SocketId>, ev: Event)
    ensures |FanOut(sids, ev)| == |sids|
    decreases |sids|
  {
    if sids != {} {
      var x :| x in sids;
      var rest := sids - {x};
      FanOutOnePerSocket(rest, ev);
      assert FanOut(sids, ev) == FanOut(rest, ev) + {Emission(ToSocket(x), ev)};
      assert Emission(ToSocket(x), ev) !in FanOut(rest, ev);
    }
  }
}

=== FILE: jsvalues.dfy ===
/** The handful of JavaScript value semantics the server's decisions turn
    on: truthiness (`if (!x)`, `a || b`, `!!x`) and conversion to a string
    (`String(x)`, template literals). Only integral numbers are modelled. */
module JsValues {

  datatype JsVal =
    | Undefined
    | Null
    | Bool(b: bool)
    | Num(n: int)
    | Str(s: string)
    | Obj(stringId: string)  // an object; `stringId` is its `_id` when that is a non-empty string, else ""

  /** JavaScript truthiness: `undefined`, `null`, `false`, `0` and `""` are
      falsy, everything else (any object included) is truthy. */
  predicate Truthy(v: JsVal) {
    match v
    case Undefined => false
    case Null => false
    case Bool(b) => b
    case Num(n) => n != 0
    case Str(s) => s != ""
    case Obj(_) => true
  }

  predicate IsDigit(c: char) {
    '0' <= c <= '9'
  }

  function DigitChar(d: nat): (c: char)
    requires d < 10
    ensures IsDigit(c)
    ensures c as int - '0' as int == d
  {
    (d + '0' as int) as char
  }

  function DigitValue(c: char): nat
    requires IsDigit(c)
  {
    c as int - '0' as int
  }

  /** Decimal notation of a natural number, as `String(n)` prints it. */
  function NatToDecimal(n: nat): (r: string)
    ensures |r| >= 1
    ensures forall i :: 0 <= i < |r| ==> IsDigit(r[i])
    ensures r[0] == '0' ==> n == 0
  {
    if n < 10 then [DigitChar(n)] else NatToDecimal(n / 10) + [DigitChar(n % 10)]
  }

  /** The value a string of decimal digits denotes, as `Number(s)` reads it. */
  function DecimalValue(s: string): nat
    requires forall i :: 0 <= i < |s| ==> IsDigit(s[i])
  {
    if |s| == 0 then 0
    else 10 * DecimalValue(s[..|s| - 1]) + DigitValue(s[|s| - 1])
  }

  /** Reading back the decimal notation of `n` gives `n`. */
  lemma {:induction false} DecimalRoundTrip(n: nat)
    ensures DecimalValue(NatToDecimal(n)) == n
  {
    if n >= 10 {
      var r := NatToDecimal(n);
      var prefix := NatToDecimal(n / 10);
      assert r[..|r| - 1] == prefix;
      DecimalRoundTrip(n / 10);
    }
  }

  /** `String(v)`. */
  function ToStr(v: JsVal): (r: string)
    ensures r == "" <==> v == Str("")
    ensures Truthy(v) ==> r != ""
    ensures v.Str? ==> r == v.s
  {
    match v
    case Undefined => "undefined"
    case Null => "null"
    case Bool(b) => if b then "true" else "false"
    case Num(n) => if n < 0 then "-" + NatToDecimal(-n) else NatToDecimal(n)
    case Str(s) => s
    case Obj(_) => "[object Object]"
  }
}

=== FILE: messages.dfy ===
/** The message history endpoint of controllers/messages.controller.js:
    the repair of stored attachments (`normalizeAttachments`) and the page
    flags `hasMore` and `nextCursor`. Some stored attachments are raw URL
    strings and some are URL strings that were spread into an object of
    character indices (`{"0": "h", "1": "t", ...}`); both are turned back
    into `{url, format}` objects. */
module Messages {
  import opened Base
  import opened JsValues
  import opened Text
  import opened Sorting

  // ---------------------------------------------------------------------
  // Attachments

  /** A stored attachment as the handler sees it: a string, an object (its
      own keys in `Object.keys` order; arrays are objects whose keys are
      their indices), or any other value. */
  datatype Attachment =
    | AStr(s: string)
    | AObj(fields: seq<(string, JsVal)>)
    | AOther(v: JsVal)

  /** The `attachments` field of a stored message, which may not be an
      array at all. */
  datatype Attachments = NotArray(v: JsVal) | Items(items: seq<Attachment>)

  /** `a[key]`: the value of the first field named `key`, `undefined` when
      there is none. */
  function Get(fields: seq<(string, JsVal)>, key: string): (v: JsVal)
    ensures v != Undefined ==> exists i :: 0 <= i < |fields| && fields[i] == (key, v)
    ensures (forall i :: 0 <= i < |fields| ==> fields[i].0 != key) ==> v == Undefined
  {
    if |fields| == 0 then Undefined
    else if fields[0].0 == key then fields[0].1
    else
      var v := Get(fields[1..], key);
      assert forall i :: 0 <= i < |fields[1..]| ==> fields[1..][i] == fields[i + 1];
      v
  }

  /** `/^\d+$/`: a non-empty run of ASCII digits. */
  predicate DigitKey(k: string) {
    |k| > 0 && forall i :: 0 <= i < |k| ==> IsDigit(k[i])
  }

  /** `Number(k)` for a digit key; other keys never reach the sort. */
  function KeyNumber(f: (string, JsVal)): int {
    if DigitKey(f.0) then DecimalValue(f.0) else 0
  }

  predicate LowerAlnum(c: char) {
    'a' <= c <= 'z' || IsDigit(c)
  }

  /** Length of the run of `[a-z0-9]` characters starting at `i`. */
  function AlnumRun(s: string, i: nat): (n: nat)
    ensures i + n <= |s| || (i > |s| && n == 0)
    ensures forall k :: i <= k < i + n ==> LowerAlnum(s[k])
    ensures i + n < |s| ==> !LowerAlnum(s[i + n])
    decreases |s| - i
  {
    if i < |s| && LowerAlnum(s[i]) then 1 + AlnumRun(s, i + 1) else 0
  }

  /** `/\.([a-z0-9]+)(?:\?|#|$)/` matches at `p`: a dot, a non-empty run of
      lower-case letters and digits, then `?`, `#` or the end. A shorter run
      would be followed by a letter or digit, so only the whole run can
      match. */
  predicate FormatAt(s: string, p: nat) {
    && p < |s| && s[p] == '.'
    && AlnumRun(s, p + 1) > 0
    && var e := p + 1 + AlnumRun(s, p + 1);
       e == |s| || s[e] == '?' || s[e] == '#'
  }

  /** The captured extension of the leftmost match at or after `from`. */
  function FormatFrom(s: string, from: nat): (r: Option<string>)
    ensures r.Some? ==> exists p :: from <= p && FormatAt(s, p) && r.value == s[p + 1..p + 1 + AlnumRun(s, p + 1)]
                                    && forall q :: from <= q < p ==> !FormatAt(s, q)
    ensures r.None? ==> forall p :: from <= p ==> !FormatAt(s, p)
    decreases |s| - from
  {
    if from >= |s| then None
    else if FormatAt(s, from) then Some(s[from + 1..from + 1 + AlnumRun(s, from + 1)])
    else FormatFrom(s, from + 1)
  }

  /** The `format` of a URL: the match on the lower-cased URL, or
      `undefined`. */
  function FormatOf(url: string): (r: JsVal)
    ensures r == Undefined || (r.Str? && |r.s| > 0 && forall k :: 0 <= k < |r.s| ==> LowerAlnum(r.s[k]))
  {
    match FormatFrom(ToLower(url), 0)
    case None => Undefined
    case Some(f) => Str(f)
  }

  /** `Array.prototype.join("")` of the values: `undefined` and `null` add
      nothing, anything else its string form. */
  function JoinValues(fields: seq<(string, JsVal)>): string {
    if |fields| == 0 then ""
    else
      var v := fields[0].1;
      (if v == Undefined || v == Null then "" else ToStr(v)) + JoinValues(fields[1..])
  }

  /** Whether an attachment is already an object with a truthy `url`. */
  predicate WellShaped(a: Attachment) {
    a.AObj? && Truthy(Get(a.fields, "url"))
  }

  /** The fields of `fields` whose key is a digit key, in their order. */
  function CharFields(fields: seq<(string, JsVal)>): (r: seq<(string, JsVal)>)
    ensures forall f :: f in r <==> f in fields && DigitKey(f.0)
  {
    Filter(fields, (f: (string, JsVal)) => DigitKey(f.0))
  }

  /** The repaired object `{url, format}` (plus `_id` when given). Its
      meaning is stated by `RepairedShape`. */
  function Repaired(url: string, id: JsVal): (r: Attachment)
    ensures r.AObj?
  {
    var base := [("url", Str(url)), ("format", FormatOf(url))];
    AObj(if Truthy(id) then base + [("_id", id)] else base)
  }

  /** No key of a repaired object is a character index. */
  lemma RepairedKeys(url: string, id: JsVal)
    ensures forall f :: f in Repaired(url, id).fields ==> f.0 in {"url", "format", "_id"}
    ensures !DigitKey("url") && !DigitKey("format") && !DigitKey("_id")
  {
    assert !IsDigit("url"[0]) && !IsDigit("format"[0]) && !IsDigit("_id"[0]);
  }

  /** The repaired object holds no character fields. */
  lemma RepairedHasNoChars(url: string, id: JsVal)
    ensures CharFields(Repaired(url, id).fields) == []
  {
    RepairedKeys(url, id);
    var fs := Repaired(url, id).fields;
    assert forall i :: 0 <= i < |fs| ==> fs[i] in fs;
    FilterNone(fs, (f: (string, JsVal)) => DigitKey(f.0));
  }

  /** The repaired object answers `url` with the URL, `format` with the
      URL's extension and `_id` with the id when it is truthy, and holds no
      character fields. */
  lemma RepairedShape(url: string, id: JsVal)
    ensures var r := Repaired(url, id);
      && Get(r.fields, "url") == Str(url)
      && Get(r.fields, "format") == FormatOf(url)
      && Get(r.fields, "_id") == (if Truthy(id) then id else Undefined)
      && CharFields(r.fields) == []
  {
    var fs := Repaired(url, id).fields;
    var tail := fs[1..];
    assert "url" != "format" && "url" != "_id" && "format" != "_id" by {
      assert "url"[0] != "format"[0] && "url"[0] != "_id"[0] && "format"[0] != "_id"[0];
    }
    assert Get(fs, "url") == Str(url);
    assert Get(fs, "format") == Get(tail, "format") == FormatOf(url);
    if Truthy(id) {
      assert tail[1..] == [("_id", id)];
      assert Get(fs, "_id") == Get(tail, "_id") == Get(tail[1..], "_id") == id;
    } else {
      assert tail[1..] == [];
      assert Get(fs, "_id") == Get(tail, "_id") == Get(tail[1..], "_id") == Undefined;
    }
    RepairedHasNoChars(url, id);
  }

  /** The repair of one attachment: a well-shaped object, and anything
      that is neither a string nor an object, is kept; a string becomes the
      object for that URL; an object with character fields becomes the
      object for the URL those characters spell in key order, keeping its
      `_id`; an object without any is kept. */
  function NormalizeOne(a: Attachment): (r: Attachment)
    ensures WellShaped(a) || a.AOther? ==> r == a
    ensures a.AStr? ==> && r.AObj? && Get(r.fields, "url") == Str(a.s)
                        && Get(r.fields, "format") == FormatOf(a.s)
                        && Get(r.fields, "_id") == Undefined
    ensures a.AObj? && !WellShaped(a) ==> (r == a <==> CharFields(a.fields) == [])
    ensures a.AObj? && !WellShaped(a) && CharFields(a.fields) != [] ==>
      var url := JoinValues(SortBy(CharFields(a.fields), KeyNumber));
      var id := Get(a.fields, "_id");
      && r.AObj? && Get(r.fields, "url") == Str(url)
      && Get(r.fields, "format") == FormatOf(url)
      && Get(r.fields, "_id") == (if Truthy(id) then id else Undefined)
  {
    if WellShaped(a) then a
    else match a
      case AStr(s) => RepairedShape(s, Undefined); Repaired(s, Undefined)
      case AObj(fields) =>
        var chars := CharFields(fields);
        if |chars| > 0 then
          var url := JoinValues(SortBy(chars, KeyNumber));
          RepairedShape(url, Get(fields, "_id"));
          Repaired(url, Get(fields, "_id"))
        else a
      case AOther(_) => a
  }

  /** `normalizeAttachments`: a non-array gives an empty list; an array is
      repaired item by item. */
  function NormalizeAttachments(as_: Attachments): (r: seq<Attachment>)
    ensures as_.NotArray? ==> r == []
    ensures as_.Items? ==> |r| == |as_.items| && forall i :: 0 <= i < |r| ==> r[i] == NormalizeOne(as_.items[i])
  {
    match as_
    case NotArray(_) => []
    case Items(items) => MapSeq(items, NormalizeOne)
  }

  /** A repaired object is left alone by a second repair. */
  lemma RepairedIsStable(url: string, id: JsVal)
    ensures NormalizeOne(Repaired(url, id)) == Repaired(url, id)
  {
    RepairedShape(url, id);
  }

  /** Normalising twice is the same as normalising once. */
  lemma NormalizeOneIdempotent(a: Attachment)
    ensures NormalizeOne(NormalizeOne(a)) == NormalizeOne(a)
  {
    if !WellShaped(a) {
      match a
      case AStr(s) => RepairedIsStable(s, Undefined);
      case AObj(fields) =>
        if |CharFields(fields)| > 0 {
          RepairedIsStable(JoinValues(SortBy(CharFields(fields), KeyNumber)), Get(fields, "_id"));
        }
      case AOther(_) =>
    }
  }

  /** The same for whole lists. */
  lemma NormalizeAttachmentsIdempotent(as_: Attachments)
    ensures NormalizeAttachments(Items(NormalizeAttachments(as_))) == NormalizeAttachments(as_)
  {
    var once := NormalizeAttachments(as_);
    var twice := NormalizeAttachments(Items(once));
    forall i | 0 <= i < |once|
      ensures twice[i] == once[i]
    {
      NormalizeOneIdempotent(as_.items[i]);
    }
  }

  // ---------------------------------------------------------------------
  // Repairing a spread string

  /** `{...url}`: the object a string becomes when spread, one field per
      character keyed by its index. */
  function Spread(url: string): (r: seq<(string, JsVal)>)
    ensures |r| == |url|
    ensures forall i :: 0 <= i < |url| ==> r[i] == (NatToDecimal(i), Str([url[i]]))
  {
    seq(|url|, i requires 0 <= i < |url| => (NatToDecimal(i), Str([url[i]])))
  }

  /** Inserting an element whose key is at least every other key appends
      it. */
  lemma {:induction false} InsertLast<T>(x: T, s: seq<T>, key: T -> int)
    requires SortedBy(s, key)
    requires forall k :: 0 <= k < |s| ==> key(s[k]) <= key(x)
    ensures Insert(x, s, key) == s + [x]
  {
    if |s| > 0 {
      assert SortedBy(s[1..], key);
      InsertLast(x, s[1..], key);
      assert s == [s[0]] + s[1..];
    }
  }

  /** Sorting an already sorted sequence changes nothing. */
  lemma {:induction false} SortBySorted<T>(s: seq<T>, key: T -> int)
    requires SortedBy(s, key)
    ensures SortBy(s, key) == s
  {
    if |s| > 0 {
      var init := s[..|s| - 1];
      assert SortedBy(init, key);
      SortBySorted(init, key);
      InsertLast(s[|s| - 1], init, key);
      assert init + [s[|s| - 1]] == s;
    }
  }

  /** Joining fields whose values are the one-character strings of `url`
      gives `url` back. */
  lemma {:induction false} JoinChars(fields: seq<(string, JsVal)>, url: string)
    requires |fields| == |url|
    requires forall i :: 0 <= i < |url| ==> fields[i].1 == Str([url[i]])
    ensures JoinValues(fields) == url
  {
    if |url| > 0 {
      JoinChars(fields[1..], url[1..]);
      assert url == [url[0]] + url[1..];
    }
  }

  /** A spread string has no `url` field: every key starts with a digit. */
  lemma SpreadHasNoUrl(url: string)
    ensures Get(Spread(url), "url") == Undefined
  {
    var fields := Spread(url);
    forall i | 0 <= i < |fields|
      ensures fields[i].0 != "url"
    {
      assert IsDigit(fields[i].0[0]) && !IsDigit("url"[0]);
    }
  }

  /** Every field of a spread string is a character field. */
  lemma SpreadAllChars(url: string)
    ensures CharFields(Spread(url)) == Spread(url)
  {
    var fields := Spread(url);
    assert forall i :: 0 <= i < |fields| ==> DigitKey(fields[i].0);
    AllPass(fields);
  }

  /** The fields of a spread string are already in numeric key order. */
  lemma SpreadSorted(url: string)
    ensures SortedBy(Spread(url), KeyNumber)
  {
    var fields := Spread(url);
    forall i | 0 <= i < |fields|
      ensures KeyNumber(fields[i]) == i
    {
      DecimalRoundTrip(i);
    }
  }

  /** A URL that was spread into character fields is repaired to itself:
      the digit keys are already in numeric order and the characters join
      back into the URL. */
  lemma SpreadStringRepaired(url: string)
    requires url != ""
    ensures var r := NormalizeOne(AObj(Spread(url)));
      Get(r.fields, "url") == Str(url) && Get(r.fields, "format") == FormatOf(url)
  {
    var fields := Spread(url);
    SpreadHasNoUrl(url);
    SpreadAllChars(url);
    SpreadSorted(url);
    SortBySorted(fields, KeyNumber);
    JoinChars(fields, url);
    assert NormalizeOne(AObj(fields)) == Repaired(url, Get(fields, "_id"));
    RepairedShape(url, Get(fields, "_id"));
  }

  /** Filtering fields that all have digit keys keeps them all. */
  lemma {:induction false} AllPass(fields: seq<(string, JsVal)>)
    requires forall i :: 0 <= i < |fields| ==> DigitKey(fields[i].0)
    ensures CharFields(fields) == fields
  {
    if |fields| > 0 {
      assert forall i :: 0 <= i < |fields[1..]| ==> fields[1..][i] == fields[i + 1];
      AllPass(fields[1..]);
    }
  }

  // ---------------------------------------------------------------------
  // getMessages

  datatype Message = Message(id: int, conversation: string, attachments: Attachments)

  /** A message as returned: the stored one with its attachments repaired. */
  datatype Shown = Shown(id: int, conversation: string, attachments: seq<Attachment>)

  datatype Page = Page(messages: seq<Shown>, hasMore: bool, nextCursor: Option<int>)

  /** The messages the query selects, in storage order: those of the
      conversation, and with an id below `before` when that is given. */
  function Selected(stored: seq<Message>, conversation: string, before: Option<int>): (r: seq<Message>)
    ensures forall m :: m in r <==>
      m in stored && m.conversation == conversation && (before.Some? ==> m.id < before.value)
  {
    Filter(stored, (m: Message) => m.conversation == conversation && (before.None? || m.id < before.value))
  }

  /** `.limit(n)`: zero means no limit and a negative limit counts like its
      absolute value. */
  function Limited(s: seq<Message>, limit: int): (r: seq<Message>)
    ensures r <= s
    ensures limit == 0 ==> r == s
    ensures limit != 0 ==> |r| == if |s| < Abs(limit) then |s| else Abs(limit)
  {
    if limit == 0 then s else Take(s, Abs(limit))
  }

  function Abs(n: int): nat {
    if n < 0 then -n else n
  }

  /** The page size when the query string gives no `limit`. */
  const DefaultLimit := 20

  /** `getMessages`: `before` is the cursor (absent when falsy), `limit`
      the number the query string converts to, absent when the query
      string has no `limit` (the handler then uses 20). */
  function GetMessages(stored: seq<Message>, conversation: string, before: Option<int>, limit: Option<int>)
    : (p: Page)
    ensures var sel := Selected(stored, conversation, before);
      var n := if limit.Some? then limit.value else DefaultLimit;
      && |p.messages| <= |sel|
      && (forall i :: 0 <= i < |p.messages| ==>
            && p.messages[i].id == sel[i].id
            && p.messages[i].conversation == conversation
            && p.messages[i].attachments == NormalizeAttachments(sel[i].attachments))
      && (n == 0 ==> |p.messages| == |sel|)
      && (n != 0 ==> |p.messages| == if |sel| < Abs(n) then |sel| else Abs(n))
      && (p.hasMore <==> |p.messages| == n)
    ensures limit.None? ==> |p.messages| <= DefaultLimit
    ensures p.nextCursor.Some? <==> |p.messages| > 0
    ensures p.nextCursor.Some? ==> p.nextCursor.value == p.messages[0].id
  {
    var n := limit.GetOr(DefaultLimit);
    var sel := Selected(stored, conversation, before);
    var raw := Limited(sel, n);
    assert forall i :: 0 <= i < |raw| ==> raw[i] == sel[i] && raw[i] in sel;
    var shown := MapSeq(raw, (m: Message) => Shown(m.id, m.conversation, NormalizeAttachments(m.attachments)));
    Page(shown, |raw| == n, if |raw| > 0 then Some(raw[0].id) else None)
  }

  /** With a positive limit (the default one included), a page without
      `hasMore` holds every selected message, and a page with it is exactly
      `limit` long. */
  lemma HasMoreMeansFull(stored: seq<Message>, conversation: string, before: Option<int>, limit: Option<int>)
    requires limit.None? || limit.value > 0
    ensures var p := GetMessages(stored, conversation, before, limit);
      var sel := Selected(stored, conversation, before);
      var n := if limit.Some? then limit.value else DefaultLimit;
      (!p.hasMore ==> |p.messages| == |sel| < n) && (p.hasMore ==> |sel| >= n)
  {
  }
}

=== FILE: presence.dfy ===
/** The connection lifecycle of sockets/index.js: identity resolution from
    the handshake, registration and presence on connect, the visibility and
    ping handlers, and deregistration and presence on disconnect. Each
    handler is one atomic step from a store to a new store plus what it
    emitted; the contact collection is passed in. */
module Presence {
  import opened Base
  import opened JsValues
  import opened Registry
  import opened Contacts
  import opened Events

  /** The three places a client may put its user id: `auth.userId`,
      `query.userId` and `headers.userId` (Undefined when absent). */
  datatype Handshake = Handshake(authUserId: JsVal, queryUserId: JsVal, headerUserId: JsVal)

  /** `auth?.userId || query?.userId || headers?.userId`, then
      `raw ? String(raw) : null`: the first truthy field wins, as a string. */
  function ResolveIdentity(h: Handshake): (r: Option<UserId>)
    ensures r.Some? <==> Truthy(h.authUserId) || Truthy(h.queryUserId) || Truthy(h.headerUserId)
    ensures Truthy(h.authUserId) ==> r == Some(ToStr(h.authUserId))
    ensures !Truthy(h.authUserId) && Truthy(h.queryUserId) ==> r == Some(ToStr(h.queryUserId))
    ensures !Truthy(h.authUserId) && !Truthy(h.queryUserId) && Truthy(h.headerUserId) ==>
      r == Some(ToStr(h.headerUserId))
    ensures r.Some? ==> r.value != ""
  {
    var raw := if Truthy(h.authUserId) then h.authUserId
               else if Truthy(h.queryUserId) then h.queryUserId
               else h.headerUserId;
    if Truthy(raw) then Some(ToStr(raw)) else None
  }

  /** The contact-scoped "came online" fan-out: the update goes to every
      socket of every registered user the connecting user has an edge to
      (blocked or not; the fan-out is one-directional). */
  function OnlineFanOut(st: Store, contacts: seq<Edge>, u: UserId): (r: set<Emission>)
    ensures forall m :: m in r <==>
      && m.event == PresenceUpdate(u, true)
      && m.target.ToSocket?
      && exists e :: e in contacts && e.contactUser.Some? && m.target.sid in Sockets(st, e.contactUser.value)
  {
    set e, sid | e in contacts && e.contactUser.Some? && sid in Sockets(st, e.contactUser.value)
      :: Emission(ToSocket(sid), PresenceUpdate(u, true))
  }

  /** Read against the socket hashes: under the registry invariant the
      fan-out reaches exactly the sockets whose hash names a user that one
      of the edges points at, and each of them gets one online update. */
  lemma OnlineFanOutReachesContacts(st: Store, contacts: seq<Edge>, u: UserId, m: Emission)
    requires Wf(st)
    ensures m in OnlineFanOut(st, contacts, u) <==>
      && m.target.ToSocket? && m.event == PresenceUpdate(u, true)
      && m.target.sid in st.meta
      && exists e :: e in contacts && e.contactUser.Some? && st.meta[m.target.sid].userId == e.contactUser
  {
    if m.target.ToSocket? {
      forall e | e in contacts && e.contactUser.Some?
        ensures m.target.sid in Sockets(st, e.contactUser.value) <==>
                m.target.sid in st.meta && st.meta[m.target.sid].userId == e.contactUser
      {
        MembersAgreeWithMeta(st, e.contactUser.value);
      }
    }
  }

  /** What the connection handler did. `emitted` are the global broadcasts
      in order, `delivered` the per-socket deliveries, and `listening`
      whether the per-socket event handlers were installed. */
  datatype Connection = Connection(
    store: Store, emitted: seq<Emission>, delivered: set<Emission>, listening: bool)

  /** The "connection" handler. Without an identity it returns at once. With
      one it registers the socket, broadcasts `{userId, online: true}` to all
      clients (on every connection), installs the handlers, and, when the
      user's set has exactly one member after registering, notifies every
      socket of the user's contacts. */
  function Connect(st: Store, edges: seq<Edge>, h: Handshake, sid: SocketId, now: int): (r: Connection)
    ensures r.listening <==> ResolveIdentity(h).Some?
    ensures !r.listening ==> r.store == st && r.emitted == [] && r.delivered == {}
    ensures r.listening ==>
      var u := ResolveIdentity(h).value;
      && r.store == AddSocketForUser(st, u, sid, now)
      && sid in Sockets(r.store, u)
      && r.emitted == [Emission(AllClients, PresenceUpdate(u, true))]
      && (Count(r.store, u) != 1 ==> r.delivered == {})
      && (Count(r.store, u) == 1 ==>
            forall m :: m in r.delivered <==>
              && m.event == PresenceUpdate(u, true)
              && m.target.ToSocket?
              && exists v :: (exists e :: e in edges && e.owner == u && e.contactUser == Some(v))
                             && m.target.sid in Sockets(r.store, v))
  {
    match ResolveIdentity(h)
    case None => Connection(st, [], {}, false)
    case Some(u) =>
      var st1 := AddSocketForUser(st, u, sid, now);
      var contacts := GetContactsForUser(edges, u);
      var fan := if Count(st1, u) == 1 then OnlineFanOut(st1, contacts, u) else {};
      Connection(st1, [Emission(AllClients, PresenceUpdate(u, true))], fan, true)
  }

  /** Under the registry invariant and with a fresh socket id, the
      contact fan-out runs exactly on the user's first device: the count
      after registering is 1 iff the user had no socket before. */
  lemma {:induction false} FanOutOnlyOnFirstDevice(st: Store, edges: seq<Edge>, h: Handshake, sid: SocketId, now: int)
    requires Wf(st)
    requires sid !in st.meta
    requires ResolveIdentity(h).Some?
    ensures var u := ResolveIdentity(h).value;
      Count(Connect(st, edges, h, sid, now).store, u) == 1 <==> Count(st, u) == 0
    ensures var u := ResolveIdentity(h).value;
      Connect(st, edges, h, sid, now).delivered != {} ==> Count(st, u) == 0
  {
    var u := ResolveIdentity(h).value;
    assert sid !in Sockets(st, u);
    var after := Sockets(st, u) + {sid};
    assert |after| == |Sockets(st, u)| + 1;
  }

  /** The `client:visibility` handler stores `!!visible`. `payload` is the
      event's argument, None when it is missing or null: destructuring it
      then throws before anything is written. */
  function OnVisibility(st: Store, sid: SocketId, payload: Option<JsVal>, now: int): (r: Store)
    ensures payload.None? ==> r == st
    ensures r.sets == st.sets
    ensures payload.Some? ==> sid in r.meta && r.meta[sid].visible == Truthy(payload.value)
    ensures forall s :: s != sid ==> (s in r.meta <==> s in st.meta)
  {
    match payload
    case None => st
    case Some(visible) => SetSocketVisibility(st, sid, Truthy(visible), now)
  }

  datatype PingReply = PingReply(ok: bool, ts: int)

  /** The `ping-server` handler acknowledges `{ok: true, ts}` when the client
      supplied an acknowledgement callback, and does nothing otherwise. */
  function OnPing(hasAck: bool, now: int): (r: Option<PingReply>)
    ensures r.Some? <==> hasAck
    ensures r.Some? ==> r.value.ok && r.value.ts == now
  {
    if hasAck then Some(PingReply(true, now)) else None
  }

  /** How long the `presence:<userId>` "offline" marker lives (60 s). */
  const PresenceTtlMs := 60 * 1000

  datatype Disconnection = Disconnection(store: Store, emitted: seq<Emission>)

  /** The "disconnect" handler of a socket registered for `u`: deregister,
      then, only when `u` has no socket left, write the offline marker and
      broadcast `{userId, online: false}` to all clients. */
  function Disconnect(st: Store, u: UserId, sid: SocketId, now: int): (r: Disconnection)
    ensures r.store.sets == RemoveSocket(st, sid).sets
    ensures r.store.meta == RemoveSocket(st, sid).meta
    ensures r.emitted == [] || r.emitted == [Emission(AllClients, PresenceUpdate(u, false))]
    ensures r.emitted != [] <==> Count(r.store, u) == 0
    ensures Count(r.store, u) == 0 ==> r.store.presence == st.presence[u := now + PresenceTtlMs]
    ensures Count(r.store, u) != 0 ==> r.store.presence == st.presence
  {
    var st1 := RemoveSocket(st, sid);
    if Count(st1, u) == 0 then
      Disconnection(st1.(presence := st1.presence[u := now + PresenceTtlMs]),
                    [Emission(AllClients, PresenceUpdate(u, false))])
    else
      Disconnection(st1, [])
  }

  /** Disconnecting one of several devices broadcasts nothing; the last
      device's disconnect broadcasts "offline" exactly once. */
  lemma {:induction false} OfflineOnlyOnLastDevice(st: Store, u: UserId, sid: SocketId, now: int)
    requires Wf(st)
    requires sid in Sockets(st, u)
    ensures Count(st, u) > 1 ==> Disconnect(st, u, sid, now).emitted == []
    ensures Count(st, u) == 1 ==>
      Disconnect(st, u, sid, now).emitted == [Emission(AllClients, PresenceUpdate(u, false))]
  {
    assert st.meta[sid].userId == Some(u);
    var rest := Sockets(st, u) - {sid};
    assert |rest| == Count(st, u) - 1;
    assert Sockets(RemoveSocket(st, sid), u) == rest;
  }

  /** Two devices: connect s1, connect s2, drop s1, drop s2. Both connects
      broadcast "online" globally; only the last disconnect broadcasts
      "offline", and the registry ends empty. */
  lemma TwoDeviceScenario()
    ensures
      var h := Handshake(Str("A"), Undefined, Undefined);
      var c1 := Connect(EmptyStore, [], h, "s1", 1);
      var c2 := Connect(c1.store, [], h, "s2", 2);
      var d1 := Disconnect(c2.store, "A", "s1", 3);
      var d2 := Disconnect(d1.store, "A", "s2", 4);
      && Sockets(c1.store, "A") == {"s1"}
      && Sockets(c2.store, "A") == {"s1", "s2"}
      && c2.emitted == [Emission(AllClients, PresenceUpdate("A", true))]
      && Sockets(d1.store, "A") == {"s2"}
      && d1.emitted == []
      && d2.emitted == [Emission(AllClients, PresenceUpdate("A", false))]
      && d2.store.sets == map[] && d2.store.meta == map[]
  {
    var h := Handshake(Str("A"), Undefined, Undefined);
    var c1 := Connect(EmptyStore, [], h, "s1", 1);
    var c2 := Connect(c1.store, [], h, "s2", 2);
    assert c2.store.meta["s1"].userId == Some("A");
    var d1 := Disconnect(c2.store, "A", "s1", 3);
    assert {"s1", "s2"} - {"s1"} == {"s2"};
    assert Sockets(d1.store, "A") == {"s2"};
    assert d1.store.meta["s2"].userId == Some("A");
    var d2 := Disconnect(d1.store, "A", "s2", 4);
    assert Sockets(d2.store, "A") == {};
  }

  // ---------------------------------------------------------------------
  // The contact fan-out as the source writes it.

  /** How an edge document reads when placed inside a template literal:
      Mongoose prints an inspected object, beginning with "{". Only that
      first character matters below. */
  function RenderDocument(e: Edge): (r: string)
    ensures |r| > 0 && r[0] == '{'
  {
    "{ owner: '" + e.owner + "', email: '" + e.email + "' }"
  }

  /** The fan-out loop as written: it iterates the edge documents returned
      for the user and reads `user:${contactId}:sockets` with the whole
      document in place of a user id. */
  function OnlineFanOutAsWritten(st: Store, contacts: seq<Edge>, u: UserId): set<Emission> {
    set e, sid | e in contacts && sid in Sockets(st, RenderDocument(e))
      :: Emission(ToSocket(sid), PresenceUpdate(u, true))
  }

  /** When every registered user id is an ordinary id (none starts with
      "{"), the loop as written reaches nobody. */
  lemma AsWrittenFanOutReachesNobody(st: Store, contacts: seq<Edge>, u: UserId)
    requires forall k :: k in st.sets ==> |k| > 0 && k[0] != '{'
    ensures OnlineFanOutAsWritten(st, contacts, u) == {}
  {
    forall e | e in contacts
      ensures Sockets(st, RenderDocument(e)) == {}
    {
      var key := RenderDocument(e);
      assert key[0] == '{';
      assert key !in st.sets;
    }
  }

  /** A concrete case: B has a device online and A, who added B, connects
      for the first time. The corrected fan-out reaches B's device; the
      loop as written does not. */
  lemma AsWrittenFanOutMissesContact()
    ensures
      var edges := [Edge("A", "b@x.io", Some("B"), false, None, Some(0), 0, 0)];
      var st := AddSocketForUser(AddSocketForUser(EmptyStore, "B", "sB", 0), "A", "sA", 1);
      && Count(st, "A") == 1
      && OnlineFanOutAsWritten(st, GetContactsForUser(edges, "A"), "A") == {}
      && Emission(ToSocket("sB"), PresenceUpdate("A", true)) in OnlineFanOut(st, GetContactsForUser(edges, "A"), "A")
  {
    var edges := [Edge("A", "b@x.io", Some("B"), false, None, Some(0), 0, 0)];
    var st := AddSocketForUser(AddSocketForUser(EmptyStore, "B", "sB", 0), "A", "sA", 1);
    assert st.sets.Keys == {"A", "B"};
    AsWrittenFanOutReachesNobody(st, GetContactsForUser(edges, "A"), "A");
    assert edges[0] in GetContactsForUser(edges, "A");
    assert "sB" in Sockets(st, "B");
  }
}

=== FILE: registry.dfy ===
/** The session registry kept in the shared key-value store
    (utils/redis-helpers.js). Two key families are modelled:

      user:<userId>:sockets   a set of socket ids        -> `sets`
      socket:<socketId>       a hash {userId, visible, lastSeen} -> `meta`

    plus the short-lived `presence:<userId>` marker the disconnect handler
    writes (`presence`, holding the marker's expiry time in milliseconds).
    As in the store, a set whose last member is removed disappears, so an
    absent key and an empty set are the same thing. Times are passed in. */
module Registry {
  import opened Base

  type UserId = string
  type SocketId = string

  /** A `socket:<id>` hash. `userId` is absent when the hash was created by a
      visibility update for a socket that was never registered. */
  datatype Meta = Meta(userId: Option<UserId>, visible: bool, lastSeen: int) {
    /** Whether the hash names an owner: `removeSocket` tests `meta.userId`
        for truthiness, so an empty user id counts as none. */
    predicate HasOwner() {
      userId.Some? && userId.value != ""
    }
  }

  datatype Store = Store(
    sets: map<UserId, set<SocketId>>,
    meta: map<SocketId, Meta>,
    presence: map<UserId, int>)

  const EmptyStore := Store(map[], map[], map[])

  /** `SMEMBERS user:<userId>:sockets`; an absent key reads as empty. */
  function Sockets(st: Store, u: UserId): set<SocketId> {
    if u in st.sets then st.sets[u] else {}
  }

  /** `SCARD user:<userId>:sockets`. */
  function Count(st: Store, u: UserId): nat {
    |Sockets(st, u)|
  }

  /** The registry's invariant: no stored set is empty, every member of a
      user's set has a hash naming that user, and every hash naming a user
      is a member of that user's set. It makes each socket belong to at
      most one user. */
  ghost predicate Wf(st: Store) {
    && (forall u :: u in st.sets ==> st.sets[u] != {} && u != "")
    && (forall u, sid :: u in st.sets && sid in st.sets[u] ==>
          sid in st.meta && st.meta[sid].userId == Some(u))
    && (forall sid :: sid in st.meta && st.meta[sid].userId.Some? ==>
          st.meta[sid].userId.value in st.sets
          && sid in st.sets[st.meta[sid].userId.value])
  }

  /** Removing `sid` from `u`'s set, deleting the key when it empties. */
  function RemoveMember(sets: map<UserId, set<SocketId>>, u: UserId, sid: SocketId)
    : map<UserId, set<SocketId>>
  {
    var rest := (if u in sets then sets[u] else {}) - {sid};
    if rest == {} then sets - {u} else sets[u := rest]
  }

  /** `addSocketForUser`: SADD the socket to the user's set, then write the
      socket's hash with the user, `visible = "1"` and the current time. */
  function AddSocketForUser(st: Store, u: UserId, sid: SocketId, now: int): (r: Store)
    ensures Sockets(r, u) == Sockets(st, u) + {sid}
    ensures sid in Sockets(st, u) ==> Sockets(r, u) == Sockets(st, u)
    ensures forall v :: v != u ==> Sockets(r, v) == Sockets(st, v)
    ensures sid in r.meta && r.meta[sid] == Meta(Some(u), true, now)
    ensures forall s :: s != sid ==> (s in r.meta <==> s in st.meta)
    ensures forall s :: s != sid && s in st.meta ==> r.meta[s] == st.meta[s]
    ensures r.presence == st.presence
  {
    st.(sets := st.sets[u := Sockets(st, u) + {sid}],
        meta := st.meta[sid := Meta(Some(u), true, now)])
  }

  /** `removeSocket`: read the socket's hash; without a hash or without a
      user in it only the hash key is deleted, otherwise the socket also
      leaves its owner's set. */
  function RemoveSocket(st: Store, sid: SocketId): (r: Store)
    ensures r.meta == st.meta - {sid}
    ensures r.presence == st.presence
    ensures (sid !in st.meta || !st.meta[sid].HasOwner()) ==> r.sets == st.sets
    ensures sid in st.meta && st.meta[sid].HasOwner() ==>
      var owner := st.meta[sid].userId.value;
      && Sockets(r, owner) == Sockets(st, owner) - {sid}
      && forall v :: v != owner ==> Sockets(r, v) == Sockets(st, v)
  {
    if sid !in st.meta || !st.meta[sid].HasOwner() then
      st.(meta := st.meta - {sid})
    else
      var owner := st.meta[sid].userId.value;
      st.(sets := RemoveMember(st.sets, owner, sid), meta := st.meta - {sid})
  }

  /** `setSocketVisibility`: HSET only `visible` and `lastSeen` on the
      socket's hash (creating it, without a user, if it is missing). */
  function SetSocketVisibility(st: Store, sid: SocketId, visible: bool, now: int): (r: Store)
    ensures r.sets == st.sets
    ensures r.presence == st.presence
    ensures sid in r.meta && r.meta[sid].visible == visible && r.meta[sid].lastSeen == now
    ensures sid in st.meta ==> r.meta[sid].userId == st.meta[sid].userId
    ensures sid !in st.meta ==> r.meta[sid].userId.None?
    ensures forall s :: s != sid ==> (s in r.meta <==> s in st.meta)
    ensures forall s :: s != sid && s in st.meta ==> r.meta[s] == st.meta[s]
  {
    var m := if sid in st.meta then st.meta[sid].(visible := visible, lastSeen := now)
             else Meta(None, visible, now);
    st.(meta := st.meta[sid := m])
  }

  /** `getUserSocketIds`: under the invariant, the members of a user's set
      are exactly the sockets whose hash names that user, and the read is
      empty for a user with no set. */
  lemma MembersAgreeWithMeta(st: Store, u: UserId)
    requires Wf(st)
    ensures u !in st.sets ==> Sockets(st, u) == {}
    ensures forall sid :: sid in Sockets(st, u) <==> sid in st.meta && st.meta[sid].userId == Some(u)
  {
  }

  /** `anySocketVisibleForUser`: false when the user has no sockets,
      otherwise true iff one of the listed sockets has a hash whose
      `visible` field is "1". */
  method AnySocketVisibleForUser(st: Store, u: UserId) returns (b: bool)
    ensures Sockets(st, u) == {} ==> !b
    ensures b <==> exists sid :: sid in Sockets(st, u) && sid in st.meta && st.meta[sid].visible
  {
    var ids := Sockets(st, u);
    if ids == {} {
      return false;
    }
    var todo := ids;
    while todo != {}
      invariant todo <= ids
      invariant forall sid :: sid in ids - todo ==> !(sid in st.meta && st.meta[sid].visible)
      decreases todo
    {
      var sid :| sid in todo;
      if sid in st.meta && st.meta[sid].visible {
        return true;
      }
      todo := todo - {sid};
    }
    return false;
  }

  /** `getUserSocketMeta`: one entry per listed socket, holding its hash
      if there is one. Under the invariant every entry is present and names
      the user. */
  function GetUserSocketMeta(st: Store, u: UserId): (r: map<SocketId, Option<Meta>>)
    ensures r.Keys == Sockets(st, u)
    ensures forall sid :: sid in r ==> (r[sid].Some? <==> sid in st.meta)
    ensures forall sid :: sid in r && sid in st.meta ==> r[sid] == Some(st.meta[sid])
  {
    map sid | sid in Sockets(st, u) :: if sid in st.meta then Some(st.meta[sid]) else None
  }

  lemma SocketMetaNamesUser(st: Store, u: UserId)
    requires Wf(st)
    ensures forall sid :: sid in GetUserSocketMeta(st, u) ==>
      GetUserSocketMeta(st, u)[sid].Some? && GetUserSocketMeta(st, u)[sid].value.userId == Some(u)
  {
  }

  // ---------------------------------------------------------------------
  // The invariant is kept by every operation.

  lemma EmptyStoreWf()
    ensures Wf(EmptyStore)
  {
  }

  /** Registering keeps the invariant unless the socket id is already
      registered to a different user (socket ids are fresh per connection). */
  lemma AddPreservesWf(st: Store, u: UserId, sid: SocketId, now: int)
    requires Wf(st) && u != ""
    requires sid in st.meta ==> st.meta[sid].userId in {None, Some(u)}
    ensures Wf(AddSocketForUser(st, u, sid, now))
  {
  }

  lemma RemovePreservesWf(st: Store, sid: SocketId)
    requires Wf(st)
    ensures Wf(RemoveSocket(st, sid))
  {
    if sid in st.meta && st.meta[sid].HasOwner() {
      var r := RemoveSocket(st, sid);
      var owner := st.meta[sid].userId.value;
      forall v | v in r.sets
        ensures r.sets[v] != {}
      {
        if v != owner {
          assert Sockets(r, v) == Sockets(st, v);
        }
      }
      forall v, s | v in r.sets && s in r.sets[v]
        ensures s in r.meta && r.meta[s].userId == Some(v)
      {
        assert s in Sockets(r, v);
        assert s in Sockets(st, v);
      }
      forall s | s in r.meta && r.meta[s].userId.Some?
        ensures r.meta[s].userId.value in r.sets && s in r.sets[r.meta[s].userId.value]
      {
        var v := r.meta[s].userId.value;
        assert s in Sockets(st, v);
        assert s in Sockets(r, v);
      }
    }
  }

  lemma SetVisibilityPreservesWf(st: Store, sid: SocketId, visible: bool, now: int)
    requires Wf(st)
    ensures Wf(SetSocketVisibility(st, sid, visible, now))
  {
  }

  // ---------------------------------------------------------------------
  // Idempotence, round trip and counting.

  /** A second `removeSocket` finds no hash and changes nothing further. */
  lemma RemoveIdempotent(st: Store, sid: SocketId)
    ensures RemoveSocket(RemoveSocket(st, sid), sid) == RemoveSocket(st, sid)
  {
  }

  /** Registering a fresh socket and removing it again restores the whole
      store: the user's set, every other set and every hash. */
  lemma {:induction false} AddRemoveRoundTrip(st: Store, u: UserId, sid: SocketId, now: int)
    requires Wf(st) && u != ""
    requires sid !in st.meta
    ensures RemoveSocket(AddSocketForUser(st, u, sid, now), sid) == st
  {
    var a := AddSocketForUser(st, u, sid, now);
    var r := RemoveSocket(a, sid);
    assert sid !in Sockets(st, u);
    assert a.meta[sid].userId == Some(u);
    assert r.sets == RemoveMember(a.sets, u, sid);
    assert Sockets(st, u) + {sid} - {sid} == Sockets(st, u);
    if Sockets(st, u) == {} {
      assert u !in st.sets;
      assert r.sets == st.sets[u := {sid}] - {u};
      assert r.sets == st.sets;
    } else {
      assert r.sets == st.sets[u := Sockets(st, u)];
      assert r.sets == st.sets;
    }
    assert r.meta == st.meta;
  }

  /** `n` connect/disconnect pairs, each with a fresh socket id. */
  function ApplyPairs(st: Store, u: UserId, sids: seq<SocketId>, now: int): Store
    decreases |sids|
  {
    if |sids| == 0 then st
    else ApplyPairs(RemoveSocket(AddSocketForUser(st, u, sids[0], now), sids[0]), u, sids[1..], now)
  }

  /** Any number of add/remove pairs with fresh ids leaves the store as it
      was; in particular a user who had no sockets ends with count 0. */
  lemma {:induction false} PairsRestoreStore(st: Store, u: UserId, sids: seq<SocketId>, now: int)
    requires Wf(st) && u != ""
    requires forall k :: 0 <= k < |sids| ==> sids[k] !in st.meta
    ensures ApplyPairs(st, u, sids, now) == st
    ensures Count(st, u) == 0 ==> Count(ApplyPairs(st, u, sids, now), u) == 0
  {
    if |sids| > 0 {
      AddRemoveRoundTrip(st, u, sids[0], now);
      PairsRestoreStore(st, u, sids[1..], now);
    }
  }
}

=== FILE: schemas.dfy ===
/** The two persisted records the core writes: a status (story) and a
    user's settings, with the defaults and validators their schemas declare
    (models/statuses.model.js, models/settings.model.js). */
module Schemas {
  import opened Base
  import opened JsValues
  import opened Registry

  // ---------------------------------------------------------------------
  // Status

  datatype Story = Story(
    id: string,
    userId: UserId,
    publicId: string,
    url: string,
    thumbUrl: Option<string>,
    resourceType: string,
    caption: string,
    createdAt: int,
    expiresAt: int,
    viewers: seq<UserId>)

  const ResourceTypes: set<string> := {"image", "video"}

  /** What the schema's validators accept: the required string fields are
      non-empty and the resource type is one of the enum values. */
  predicate ValidStory(s: Story) {
    && s.userId != ""
    && s.publicId != ""
    && s.url != ""
    && s.resourceType in ResourceTypes
  }

  /** The fields handed to `create`; absent ones take the schema default. */
  datatype StoryFields = StoryFields(
    userId: UserId,
    publicId: string,
    url: string,
    thumbUrl: Option<string>,
    resourceType: Option<string>,
    caption: Option<string>,
    expiresAt: int)

  /** The outcome of casting a value to a `String` path. */
  datatype StringCast = Unset | CastError | Casted(s: string)

  /** Mongoose's cast to a `String` path: `undefined` and `null` leave the
      path unset; an object whose `_id` is a non-empty string (a document)
      becomes that `_id`; any other object is a cast error, its only
      `toString` being the default one; a string is kept, and a number or a
      boolean goes through `String()`. */
  function CastString(v: JsVal): (r: StringCast)
    ensures r.Unset? <==> v == Undefined || v == Null
    ensures r.CastError? <==> v.Obj? && v.stringId == ""
    ensures r.Casted? && v.Obj? ==> r.s == v.stringId
    ensures r.Casted? && !v.Obj? ==> r.s == ToStr(v)
  {
    match v
    case Undefined => Unset
    case Null => Unset
    case Obj(id) => if id != "" then Casted(id) else CastError
    case _ => Casted(ToStr(v))
  }

  /** What reaches the validators after a cast: the cast string, or the
      empty string for an unset path, which `required` refuses. */
  function CastValue(v: JsVal): string {
    match CastString(v)
    case Casted(s) => s
    case _ => ""
  }

  /** A truthy value that casts at all casts to a non-empty string, so it
      meets a `required` validator; a string casts to itself. */
  lemma CastTruthyIsPresent(v: JsVal)
    ensures Truthy(v) && !CastString(v).CastError? ==> CastString(v).Casted? && CastValue(v) != ""
    ensures v.Str? ==> CastString(v) == Casted(v.s)
  {
  }

  datatype StoryError = UserIdRequired | PublicIdRequired | UrlRequired | BadResourceType

  /** `statusModel.create(fields)`: apply the defaults (`resourceType`
      "image", `caption` "", `createdAt` now, no viewers) and validate. */
  function CreateStory(f: StoryFields, id: string, now: int): (r: Result<Story, StoryError>)
    ensures r.Ok? <==>
      f.userId != "" && f.publicId != "" && f.url != "" && f.resourceType.GetOr("image") in ResourceTypes
    ensures r.Ok? ==> ValidStory(r.value)
    ensures r.Ok? ==>
      && r.value.id == id && r.value.userId == f.userId
      && r.value.publicId == f.publicId && r.value.url == f.url && r.value.thumbUrl == f.thumbUrl
      && r.value.resourceType == f.resourceType.GetOr("image")
      && r.value.caption == f.caption.GetOr("")
      && r.value.createdAt == now && r.value.expiresAt == f.expiresAt
      && r.value.viewers == []
  {
    var s := Story(id, f.userId, f.publicId, f.url, f.thumbUrl, f.resourceType.GetOr("image"),
                   f.caption.GetOr(""), now, f.expiresAt, []);
    if f.userId == "" then Err(UserIdRequired)
    else if f.publicId == "" then Err(PublicIdRequired)
    else if f.url == "" then Err(UrlRequired)
    else if s.resourceType !in ResourceTypes then Err(BadResourceType)
    else Ok(s)
  }

  /** A status created without a resource type or caption is a valid
      "image" status with an empty caption. */
  lemma StoryDefaults(userId: UserId, publicId: string, url: string, expiresAt: int, id: string, now: int)
    requires userId != "" && publicId != "" && url != ""
    ensures var r := CreateStory(StoryFields(userId, publicId, url, None, None, None, expiresAt), id, now);
      r.Ok? && r.value.resourceType == "image" && r.value.caption == "" && r.value.viewers == []
  {
  }

  // ---------------------------------------------------------------------
  // Settings

  const Themes: set<string> := {"dark", "light", "system"}
  const Languages: set<string> := {"en", "fr", "es", "de", "it", "pt", "ru", "ja", "zh", "ko"}

  /** A settings record. The three preference fields hold whatever value was
      written to them; `ValidSetting` says which values the schema admits. */
  datatype Setting = Setting(
    userId: UserId,
    notification: JsVal,
    theme: JsVal,
    language: JsVal,
    createdAt: int,
    updatedAt: int)

  predicate ValidSetting(s: Setting) {
    && s.userId != ""
    && s.notification.Bool?
    && s.theme.Str? && s.theme.s in Themes
    && s.language.Str? && s.language.s in Languages
  }

  /** The record a new user gets: notifications on, dark theme, English. */
  function DefaultSetting(u: UserId, now: int): (r: Setting)
    ensures u != "" ==> ValidSetting(r)
    ensures r.userId == u && r.createdAt == now && r.updatedAt == now
    ensures r.notification == Bool(true) && r.theme == Str("dark") && r.language == Str("en")
  {
    Setting(u, Bool(true), Str("dark"), Str("en"), now, now)
  }
}

=== FILE: settings.dfy ===
/** The settings endpoints of controllers/settings.controller.js: reading a
    user's record and patching it with an upsert. The settings collection is
    a map from user id to the one record `findOneAndUpdate` keeps per user;
    the user collection is the set of ids `findById` finds. */
module Settings {
  import opened Base
  import opened JsValues
  import opened Registry
  import opened Schemas

  type SettingsStore = map<UserId, Setting>

  /** The request body, as far as the handler reads it: the three allowed
      keys, `undefined` when absent. Other keys are ignored. */
  datatype Payload = Payload(notification: JsVal, theme: JsVal, language: JsVal)

  /** The `$set` document: each allowed key that the body defines. */
  datatype Patch = Patch(notification: Option<JsVal>, theme: Option<JsVal>, language: Option<JsVal>)

  datatype UpdateReply =
    | UserNotFound        // 404 {error: "user_not_found"}
    | NothingToUpdate     // 400 {error: "nothing_to_update"}
    | Updated(settings: Setting)

  datatype UpdateOutcome = UpdateOutcome(reply: UpdateReply, store: SettingsStore)

  datatype GetReply = GetUserNotFound | Found(settings: Option<Setting>)

  function Defined(v: JsVal): Option<JsVal> {
    if v == Undefined then None else Some(v)
  }

  /** The keys of `["notification", "theme", "language"]` that the patch
      sets. */
  function PatchKeys(p: Patch): (keys: set<string>)
    ensures keys <= {"notification", "theme", "language"}
    ensures "notification" in keys <==> p.notification.Some?
    ensures "theme" in keys <==> p.theme.Some?
    ensures "language" in keys <==> p.language.Some?
  {
    (if p.notification.Some? then {"notification"} else {})
    + (if p.theme.Some? then {"theme"} else {})
    + (if p.language.Some? then {"language"} else {})
  }

  /** The loop over the allowed keys: a key goes into the patch exactly
      when the body's value for it is not `undefined`, and with that value. */
  function BuildPatch(body: Payload): (p: Patch)
    ensures PatchKeys(p) == {} <==>
      body.notification == Undefined && body.theme == Undefined && body.language == Undefined
    ensures p.notification.Some? ==> p.notification.value == body.notification
    ensures p.theme.Some? ==> p.theme.value == body.theme
    ensures p.language.Some? ==> p.language.value == body.language
  {
    var p := Patch(Defined(body.notification), Defined(body.theme), Defined(body.language));
    assert "notification" in PatchKeys(p) <==> p.notification.Some?;
    p
  }

  /** `$set`: the patched fields take the patch's values, every other field
      keeps its value. */
  function ApplyPatch(s: Setting, p: Patch): (r: Setting)
    ensures r.userId == s.userId && r.createdAt == s.createdAt && r.updatedAt == s.updatedAt
    ensures r.notification == p.notification.GetOr(s.notification)
    ensures r.theme == p.theme.GetOr(s.theme)
    ensures r.language == p.language.GetOr(s.language)
  {
    s.(notification := p.notification.GetOr(s.notification),
       theme := p.theme.GetOr(s.theme),
       language := p.language.GetOr(s.language))
  }

  /** `updateSettings`: an unknown user is refused before the body is read;
      a body that defines none of the allowed keys is refused without a
      write; otherwise the user's record is patched, or created from the
      schema defaults and then patched. The patch does not touch
      `updatedAt` (the schema has no automatic timestamps). */
  function UpdateSettings(users: set<UserId>, store: SettingsStore, u: UserId, body: Payload, now: int)
    : (o: UpdateOutcome)
    ensures u !in users ==> o.reply == UserNotFound && o.store == store
    ensures u in users && body.notification == Undefined && body.theme == Undefined && body.language == Undefined
      ==> o.reply == NothingToUpdate && o.store == store
    ensures o.reply.Updated? <==>
      u in users && (body.notification != Undefined || body.theme != Undefined || body.language != Undefined)
    ensures o.reply.Updated? ==>
      var before := if u in store then store[u] else DefaultSetting(u, now);
      var r := o.reply.settings;
      && o.store == store[u := r]
      && r.userId == before.userId
      && r.createdAt == before.createdAt && r.updatedAt == before.updatedAt
      && r.notification == (if body.notification != Undefined then body.notification else before.notification)
      && r.theme == (if body.theme != Undefined then body.theme else before.theme)
      && r.language == (if body.language != Undefined then body.language else before.language)
  {
    if u !in users then UpdateOutcome(UserNotFound, store)
    else
      var patch := BuildPatch(body);
      if PatchKeys(patch) == {} then UpdateOutcome(NothingToUpdate, store)
      else
        var before := if u in store then store[u] else DefaultSetting(u, now);
        var updated := ApplyPatch(before, patch);
        UpdateOutcome(Updated(updated), store[u := updated])
  }

  /** `getSettings`: an unknown user is refused; otherwise the user's record,
      or `null` when there is none yet. */
  function GetSettings(users: set<UserId>, store: SettingsStore, u: UserId): (r: GetReply)
    ensures r == GetUserNotFound <==> u !in users
    ensures r.Found? ==> (r.settings.Some? <==> u in store)
    ensures r.Found? && r.settings.Some? ==> r.settings.value == store[u]
  {
    if u !in users then GetUserNotFound
    else Found(if u in store then Some(store[u]) else None)
  }

  // ---------------------------------------------------------------------
  // Properties

  /** Every record is keyed by its own user and holds values the schema
      admits. */
  predicate ValidStore(store: SettingsStore) {
    forall v :: v in store ==> store[v].userId == v && ValidSetting(store[v])
  }

  /** A body whose defined values are all values the schema admits. */
  predicate ValidBody(body: Payload) {
    && (body.notification == Undefined || body.notification.Bool?)
    && (body.theme == Undefined || (body.theme.Str? && body.theme.s in Themes))
    && (body.language == Undefined || (body.language.Str? && body.language.s in Languages))
  }

  /** An update with admissible values keeps every record admissible. */
  lemma UpdateKeepsStoreValid(users: set<UserId>, store: SettingsStore, u: UserId, body: Payload, now: int)
    requires ValidStore(store) && ValidBody(body) && u != ""
    ensures ValidStore(UpdateSettings(users, store, u, body, now).store)
  {
    var o := UpdateSettings(users, store, u, body, now);
    if o.reply.Updated? {
      var before := if u in store then store[u] else DefaultSetting(u, now);
      assert ValidSetting(before) && before.userId == u;
      forall v | v in o.store
        ensures o.store[v].userId == v && ValidSetting(o.store[v])
      {
        if v != u {
          assert o.store[v] == store[v];
        }
      }
    }
  }

  /** Reading after a successful update returns the updated record, and
      nobody else's record changes. */
  lemma UpdateThenGet(users: set<UserId>, store: SettingsStore, u: UserId, body: Payload, now: int, w: UserId)
    requires UpdateSettings(users, store, u, body, now).reply.Updated?
    ensures var o := UpdateSettings(users, store, u, body, now);
      GetSettings(users, o.store, u) == Found(Some(o.reply.settings))
    ensures var o := UpdateSettings(users, store, u, body, now);
      w != u ==> GetSettings(users, o.store, w) == GetSettings(users, store, w)
  {
  }

  /** Sending the same body twice leaves the store as the first request
      left it. */
  lemma UpdateIdempotent(users: set<UserId>, store: SettingsStore, u: UserId, body: Payload, now: int, later: int)
    ensures var once := UpdateSettings(users, store, u, body, now);
      UpdateSettings(users, once.store, u, body, later).store == once.store
  {
    var once := UpdateSettings(users, store, u, body, now);
    if once.reply.Updated? {
      var r := once.reply.settings;
      var twice := UpdateSettings(users, once.store, u, body, later);
      assert twice.reply.Updated?;
      assert twice.reply.settings == r;
      assert once.store[u := r] == once.store;
    }
  }
}

=== FILE: sorting.dfy ===
/** Ordering of query results by a numeric key (`.sort({createdAt: -1})`,
    `{$sort: {latest: -1}}`). The database leaves the order of equal keys
    unspecified, so the specification is "sorted and a permutation". */
module Sorting {

  /** Non-decreasing in `key`. */
  predicate SortedBy<T>(s: seq<T>, key: T -> int) {
    forall i, j :: 0 <= i < j < |s| ==> key(s[i]) <= key(s[j])
  }

  /** Prepending an element no larger than every element keeps the order. */
  lemma ConsSorted<T>(y: T, s: seq<T>, key: T -> int)
    requires SortedBy(s, key)
    requires forall k :: 0 <= k < |s| ==> key(y) <= key(s[k])
    ensures SortedBy([y] + s, key)
  {
  }

  /** Inserts `x` after every element whose key is at most `key(x)`. */
  function Insert<T>(x: T, s: seq<T>, key: T -> int): (r: seq<T>)
    requires SortedBy(s, key)
    ensures SortedBy(r, key)
    ensures multiset(r) == multiset(s) + multiset{x}
    ensures |r| == |s| + 1
  {
    if |s| == 0 then [x]
    else if key(x) < key(s[0]) then
      ConsSorted(x, s, key);
      [x] + s
    else
      var rest := Insert(x, s[1..], key);
      assert s == [s[0]] + s[1..];
      LowerBound(s[0], x, s[1..], rest, key);
      ConsSorted(s[0], rest, key);
      [s[0]] + rest
  }

  /** A key that bounds `x` and a sorted `t` from below bounds every
      element of a sequence made of `x` and the elements of `t`. */
  lemma LowerBound<T>(y: T, x: T, t: seq<T>, rest: seq<T>, key: T -> int)
    requires key(y) <= key(x)
    requires forall k :: 0 <= k < |t| ==> key(y) <= key(t[k])
    requires multiset(rest) == multiset(t) + multiset{x}
    ensures forall k :: 0 <= k < |rest| ==> key(y) <= key(rest[k])
  {
    forall k | 0 <= k < |rest|
      ensures key(y) <= key(rest[k])
    {
      assert rest[k] in multiset(rest);
      if rest[k] != x {
        assert rest[k] in multiset(t);
        var j :| 0 <= j < |t| && t[j] == rest[k];
      }
    }
  }

  /** Insertion sort on `key`, ascending. */
  function SortBy<T>(s: seq<T>, key: T -> int): (r: seq<T>)
    ensures SortedBy(r, key)
    ensures multiset(r) == multiset(s)
    ensures |r| == |s|
  {
    if |s| == 0 then []
    else
      assert s == s[..|s| - 1] + [s[|s| - 1]];
      Insert(s[|s| - 1], SortBy(s[..|s| - 1], key), key)
  }
}

=== FILE: status_post.dfy ===
/** The `status:new` handler of sockets/status.js: an ordered validation
    chain, persistence of the story, and delivery of `status:incoming` to
    every socket of every mutual contact. The URL parser is a parameter
    (`hostOf` yields the hostname, or None when the URL does not parse). */
module StatusPost {
  import opened Base
  import opened JsValues
  import opened Text
  import opened Registry
  import opened Contacts
  import opened Events
  import opened Schemas
  import opened Presence

  /** The handler's payload: the media object (None when it is falsy) and
      the caption (None when absent). */
  datatype Payload = Payload(media: Option<Media>, caption: Option<string>)

  const AllowedHost := "res.cloudinary.com"
  const StoryLifetimeMs := 24 * 60 * 60 * 1000

  /** The acknowledgement. `Crashed` is the catch-all reply carrying a
      thrown error's message, e.g. when the payload itself is missing and
      cannot be destructured. */
  datatype Ack =
    | Rejected(error: string)
    | Crashed
    | Posted(status: string, story: Story, recipients: seq<UserId>)

  predicate HasMediaFields(m: Media) {
    Truthy(m.resourceType) && Truthy(m.url) && Truthy(m.publicId)
  }

  predicate HostAllowed(m: Media, hostOf: string -> Option<string>) {
    var host := hostOf(ToStr(m.url));
    host.Some? && EndsWith(host.value, AllowedHost)
  }

  predicate TypeAllowed(m: Media) {
    m.resourceType == Str("image") || m.resourceType == Str("video")
  }

  /** Everything the chain established about an accepted post. */
  datatype Accepted = Accepted(u: UserId, media: Media, caption: Option<string>)

  /** The validation chain, in the source's order; the first failing check
      decides the reply. */
  function Validate(h: Handshake, payload: Option<Payload>, hostOf: string -> Option<string>)
    : (r: Result<Accepted, Ack>)
    ensures ResolveIdentity(h).None? ==> r == Err(Rejected("unauthenticated"))
    ensures ResolveIdentity(h).Some? && payload.None? ==> r == Err(Crashed)
    ensures ResolveIdentity(h).Some? && payload.Some? ==>
      var media := payload.value.media;
      && (media.None? ==> r == Err(Rejected("media is required")))
      && (media.Some? && !HasMediaFields(media.value) ==> r == Err(Rejected("media is required")))
      && (media.Some? && HasMediaFields(media.value) && !HostAllowed(media.value, hostOf) ==>
            r == Err(Rejected("invalid_media_url")))
      && ((media.Some? && HasMediaFields(media.value) && HostAllowed(media.value, hostOf)
           && !TypeAllowed(media.value)) ==> r == Err(Rejected("unsupported_media_type")))
    ensures r.Ok? <==>
      && ResolveIdentity(h).Some? && payload.Some? && payload.value.media.Some?
      && HasMediaFields(payload.value.media.value)
      && HostAllowed(payload.value.media.value, hostOf)
      && TypeAllowed(payload.value.media.value)
    ensures r.Ok? ==>
      r.value == Accepted(ResolveIdentity(h).value, payload.value.media.value, payload.value.caption)
  {
    match ResolveIdentity(h)
    case None => Err(Rejected("unauthenticated"))
    case Some(u) =>
      match payload
      case None => Err(Crashed)
      case Some(p) =>
        match p.media
        case None => Err(Rejected("media is required"))
        case Some(m) =>
          if !HasMediaFields(m) then Err(Rejected("media is required"))
          else if !HostAllowed(m, hostOf) then Err(Rejected("invalid_media_url"))
          else if !TypeAllowed(m) then Err(Rejected("unsupported_media_type"))
          else Ok(Accepted(u, m, p.caption))
  }

  /** The fields `create` stores for an accepted post, after the schema's
      casts: `userId` must cast to an ObjectId (`isObjectId`), and
      `publicId`, `url` and `thumbUrl` to strings. None when a cast throws,
      which the handler's `catch` turns into an error ack. */
  function FieldsOf(a: Accepted, isObjectId: string -> bool, now: int): (r: Option<StoryFields>)
    ensures r.None? <==>
      || !isObjectId(a.u)
      || CastString(a.media.publicId).CastError?
      || CastString(a.media.url).CastError?
      || CastString(a.media.thumbUrl).CastError?
    ensures r.Some? ==>
      && r.value.userId == a.u
      && r.value.publicId == CastValue(a.media.publicId)
      && r.value.url == CastValue(a.media.url)
      && (r.value.thumbUrl.None? <==> CastString(a.media.thumbUrl).Unset?)
      && (r.value.thumbUrl.Some? ==> r.value.thumbUrl.value == CastValue(a.media.thumbUrl))
      && r.value.resourceType == Some(ToStr(a.media.resourceType))
      && r.value.caption == a.caption
      && r.value.expiresAt == now + StoryLifetimeMs
  {
    var thumb := CastString(a.media.thumbUrl);
    if !isObjectId(a.u) || CastString(a.media.publicId).CastError?
       || CastString(a.media.url).CastError? || thumb.CastError? then None
    else
      Some(StoryFields(a.u, CastValue(a.media.publicId), CastValue(a.media.url),
                       if thumb.Casted? then Some(thumb.s) else None,
                       Some(ToStr(a.media.resourceType)), a.caption, now + StoryLifetimeMs))
  }

  /** An accepted post whose fields cast always satisfies the status
      schema's validators. */
  lemma AcceptedIsStorable(h: Handshake, payload: Option<Payload>, hostOf: string -> Option<string>,
                           isObjectId: string -> bool, id: string, now: int)
    requires Validate(h, payload, hostOf).Ok?
    requires FieldsOf(Validate(h, payload, hostOf).value, isObjectId, now).Some?
    ensures CreateStory(FieldsOf(Validate(h, payload, hostOf).value, isObjectId, now).value, id, now).Ok?
  {
    var a := Validate(h, payload, hostOf).value;
    assert a.u != "";
    assert ToStr(a.media.resourceType) in ResourceTypes;
    CastTruthyIsPresent(a.media.publicId);
    CastTruthyIsPresent(a.media.url);
  }

  /** Delivery to the mutual contacts: every socket of every listed user
      receives the event, and each user with at least one socket is
      recorded once in the order first reached. */
  method NotifyMutuals(st: Store, mutual: seq<UserId>, ev: Event)
    returns (notified: seq<UserId>, delivered: set<Emission>)
    ensures NoDup(notified)
    ensures forall v :: v in notified <==> v in mutual && Sockets(st, v) != {}
    ensures forall m :: m in delivered <==> exists v :: v in mutual && m in FanOut(Sockets(st, v), ev)
  {
    notified := [];
    delivered := {};
    for k := 0 to |mutual|
      invariant NoDup(notified)
      invariant forall v :: v in notified <==> v in mutual[..k] && Sockets(st, v) != {}
      invariant forall m :: m in delivered <==> exists v :: v in mutual[..k] && m in FanOut(Sockets(st, v), ev)
    {
      var uid := mutual[k];
      assert mutual[..k + 1] == mutual[..k] + [uid];
      var socketIds := Sockets(st, uid);
      if socketIds == {} {
        continue;
      }
      if uid !in notified {
        notified := notified + [uid];
      }
      delivered := delivered + FanOut(socketIds, ev);
    }
  }

  datatype StatusOutcome = StatusOutcome(statuses: seq<Story>, ack: Ack, delivered: set<Emission>)

  /** The whole handler. A rejected post persists nothing and delivers
      nothing, and so does an accepted one whose fields the schema cannot
      cast: `create` throws and the reply is the error ack. Otherwise the
      post is persisted exactly once (appended to the
      status collection) with `expiresAt` 24 hours after now. When nobody has
      added the poster the reply is `ok` with no recipients; otherwise it is
      `success`, every socket of every mutual contact gets the story, and the
      recipients are the mutual contacts with a socket, each once. */
  method PostStatus(st: Store, edges: seq<Edge>, statuses: seq<Story>, h: Handshake,
                    payload: Option<Payload>, hostOf: string -> Option<string>,
                    isObjectId: string -> bool, storyId: string, now: int)
    returns (out: StatusOutcome)
    ensures Validate(h, payload, hostOf).Err? ==>
      out == StatusOutcome(statuses, Validate(h, payload, hostOf).error, {})
    ensures Validate(h, payload, hostOf).Ok? &&
            FieldsOf(Validate(h, payload, hostOf).value, isObjectId, now).None? ==>
      out == StatusOutcome(statuses, Crashed, {})
    ensures Validate(h, payload, hostOf).Ok? &&
            FieldsOf(Validate(h, payload, hostOf).value, isObjectId, now).Some? ==>
      var a := Validate(h, payload, hostOf).value;
      && |out.statuses| == |statuses| + 1
      && out.statuses[..|statuses|] == statuses
      && out.ack.Posted?
      && out.ack.story == out.statuses[|statuses|]
      && ValidStory(out.ack.story)
      && out.ack.story.id == storyId
      && out.ack.story.userId == a.u
      && out.ack.story.url == CastValue(a.media.url)
      && out.ack.story.publicId == CastValue(a.media.publicId)
      && out.ack.story.thumbUrl == FieldsOf(a, isObjectId, now).value.thumbUrl
      && out.ack.story.resourceType == ToStr(a.media.resourceType)
      && out.ack.story.caption == a.caption.GetOr("")
      && out.ack.story.createdAt == now
      && out.ack.story.expiresAt == now + StoryLifetimeMs
      && (PeopleWhoAdded(edges, a.u) == [] ==>
            out.ack.status == "ok" && out.ack.recipients == [] && out.delivered == {})
      && (PeopleWhoAdded(edges, a.u) != [] ==>
            && out.ack.status == "success"
            && NoDup(out.ack.recipients)
            && (forall v :: v in out.ack.recipients <==> IsMutual(edges, a.u, v) && Sockets(st, v) != {})
            && (forall m :: m in out.delivered <==>
                  exists v :: IsMutual(edges, a.u, v) && m in FanOut(Sockets(st, v), StatusIncoming(
                    StoryNotice(storyId, a.u, a.caption, a.media, now, now + StoryLifetimeMs)))))
  {
    var checked := Validate(h, payload, hostOf);
    if checked.Err? {
      return StatusOutcome(statuses, checked.error, {});
    }
    var a := checked.value;
    var fields := FieldsOf(a, isObjectId, now);
    if fields.None? {
      return StatusOutcome(statuses, Crashed, {});
    }
    AcceptedIsStorable(h, payload, hostOf, isObjectId, storyId, now);
    var story := CreateStory(fields.value, storyId, now).value;
    var people := PeopleWhoAdded(edges, a.u);
    if people == [] {
      return StatusOutcome(statuses + [story], Posted("ok", story, []), {});
    }
    var mutual := MutualContacts(edges, a.u);
    var notice := StoryNotice(story.id, a.u, a.caption, a.media, story.createdAt, story.expiresAt);
    var notified, delivered := NotifyMutuals(st, mutual, StatusIncoming(notice));
    out := StatusOutcome(statuses + [story], Posted("success", story, notified), delivered);
  }

  const ScenarioAToB := Edge("A", "b@x.io", Some("B"), false, None, Some(0), 0, 0)
  const ScenarioBToA := Edge("B", "a@x.io", Some("A"), false, None, Some(0), 0, 0)

  /** With only A's edge to B, nobody has added A. */
  lemma OneWayNobodyAddedPoster()
    ensures PeopleWhoAdded([ScenarioAToB], "A") == []
  {
    forall v
      ensures !Adds([ScenarioAToB], v, "A")
    {
    }
    var r := PeopleWhoAdded([ScenarioAToB], "A");
    assert forall v :: v !in r;
  }

  /** With edges both ways, B is A's only mutual contact. */
  lemma BothWaysOnlyB()
    ensures PeopleWhoAdded([ScenarioAToB, ScenarioBToA], "A") != []
    ensures forall v :: IsMutual([ScenarioAToB, ScenarioBToA], "A", v) <==> v == "B"
  {
    var edges := [ScenarioAToB, ScenarioBToA];
    assert ScenarioBToA in edges && ScenarioAToB in edges;
    assert Adds(edges, "B", "A");
    assert "B" in PeopleWhoAdded(edges, "A");
    forall v | IsMutual(edges, "A", v)
      ensures v == "B"
    {
      var e :| e in edges && e.owner == "A" && e.contactUser == Some(v) && !e.isBlocked;
    }
    assert IsMutual(edges, "A", "B");
  }

  /** A sequence whose elements are all `x`, without duplicates, and which
      contains `x`, is `[x]`. */
  lemma SingletonSeq(s: seq<UserId>, x: UserId)
    requires NoDup(s) && x in s
    requires forall v :: v in s ==> v == x
    ensures s == [x]
  {
    forall i | 0 <= i < |s|
      ensures s[i] == s[0] && i == 0
    {
      assert s[i] in s && s[0] in s;
    }
    assert s[|s| - 1] == s[0];
  }

  /** Two users with one device each. */
  function ScenarioStore(): (r: Store)
    ensures Sockets(r, "A") == {"sA"} && Sockets(r, "B") == {"sB"}
  {
    AddSocketForUser(AddSocketForUser(EmptyStore, "A", "sA", 0), "B", "sB", 0)
  }

  const ScenarioMedia := Media(Str("image"), Str("https://res.cloudinary.com/demo/a.jpg"), Undefined, Str("p1"))
  const ScenarioPayload := Some(Payload(Some(ScenarioMedia), None))
  const ScenarioHandshake := Handshake(Str("A"), Undefined, Undefined)

  function ScenarioHost(url: string): Option<string> {
    Some(AllowedHost)
  }

  /** The scenario's user ids stand for valid ObjectIds. */
  function ScenarioIds(u: string): bool {
    true
  }

  /** A's image post on the media host passes validation. */
  lemma ScenarioPayloadAccepted()
    ensures Validate(ScenarioHandshake, ScenarioPayload, ScenarioHost).Ok?
    ensures Validate(ScenarioHandshake, ScenarioPayload, ScenarioHost).value == Accepted("A", ScenarioMedia, None)
  {
  }

  /** The mutuality scenario: A adds B (one direction only) and posts; B
      gets nothing. B then adds A and A posts again; B's device gets the
      second story and B is listed as a recipient. */
  method MutualityScenario() returns (first: StatusOutcome, second: StatusOutcome)
    ensures first.ack.Posted? && first.ack.recipients == [] && first.delivered == {}
    ensures second.ack.Posted? && second.ack.recipients == ["B"]
    ensures exists m :: m in second.delivered && m.target == ToSocket("sB")
  {
    var st := ScenarioStore();
    ScenarioPayloadAccepted();
    OneWayNobodyAddedPoster();
    first := PostStatus(st, [ScenarioAToB], [], ScenarioHandshake, ScenarioPayload, ScenarioHost, ScenarioIds, "s1", 10);

    var edges := [ScenarioAToB, ScenarioBToA];
    BothWaysOnlyB();
    second := PostStatus(st, edges, first.statuses, ScenarioHandshake, ScenarioPayload, ScenarioHost, ScenarioIds, "s2", 20);
    SingletonSeq(second.ack.recipients, "B");
    var ev := StatusIncoming(StoryNotice("s2", "A", None, ScenarioMedia, 20, 20 + StoryLifetimeMs));
    assert Emission(ToSocket("sB"), ev) in FanOut(Sockets(st, "B"), ev);
    assert Emission(ToSocket("sB"), ev) in second.delivered;
  }
}

=== FILE: text.dfy ===
/** String operations the controllers rely on: prefix and suffix tests,
    `String.prototype.split` with a non-empty separator and its inverse
    `join`, and ASCII lower-casing. */
module Text {
  import opened Base

  predicate StartsWith(s: string, prefix: string) {
    |prefix| <= |s| && s[..|prefix|] == prefix
  }

  predicate EndsWith(s: string, suffix: string) {
    |suffix| <= |s| && s[|s| - |suffix|..] == suffix
  }

  /** `sep` occurs in `s` starting at index `k`. */
  predicate OccursAt(s: string, sep: string, k: nat) {
    k + |sep| <= |s| && s[k..k + |sep|] == sep
  }

  predicate Contains(s: string, sep: string) {
    exists k: nat | k <= |s| :: OccursAt(s, sep, k)
  }

  /** The first index at or after `from` where `sep` occurs. */
  function FindFrom(s: string, sep: string, from: nat): (r: Option<nat>)
    requires |sep| > 0
    ensures r.Some? ==> from <= r.value && OccursAt(s, sep, r.value)
    ensures r.Some? ==> forall k: nat :: from <= k < r.value ==> !OccursAt(s, sep, k)
    ensures r.None? ==> forall k: nat :: from <= k ==> !OccursAt(s, sep, k)
    decreases |s| - from
  {
    if from + |sep| > |s| then None
    else if s[from..from + |sep|] == sep then Some(from)
    else FindFrom(s, sep, from + 1)
  }

  /** `s.split(sep)` for a non-empty separator. */
  function Split(s: string, sep: string): (parts: seq<string>)
    requires |sep| > 0
    ensures |parts| >= 1
    decreases |s|
  {
    match FindFrom(s, sep, 0)
    case None => [s]
    case Some(i) => [s[..i]] + Split(s[i + |sep|..], sep)
  }

  /** `parts.join(sep)`. */
  function Join(parts: seq<string>, sep: string): string {
    if |parts| == 0 then ""
    else if |parts| == 1 then parts[0]
    else parts[0] + sep + Join(parts[1..], sep)
  }

  /** Splitting and joining back with the same separator gives the input. */
  lemma {:induction false} JoinSplit(s: string, sep: string)
    requires |sep| > 0
    ensures Join(Split(s, sep), sep) == s
    decreases |s|
  {
    match FindFrom(s, sep, 0)
    case None =>
    case Some(i) =>
      var rest := s[i + |sep|..];
      var tailParts := Split(rest, sep);
      var parts := Split(s, sep);
      assert parts == [s[..i]] + tailParts;
      assert parts[1..] == tailParts;
      JoinSplit(rest, sep);
      assert Join(parts, sep) == s[..i] + sep + Join(tailParts, sep);
      assert s[i..i + |sep|] == sep;
      assert s == s[..i] + s[i..i + |sep|] + rest;
  }

  /** Below the first occurrence found from 0, `sep` does not occur. */
  lemma NoOccurrenceBefore(s: string, sep: string, i: nat, k: nat)
    requires |sep| > 0 && FindFrom(s, sep, 0) == Some(i) && k < i
    ensures !OccursAt(s, sep, k)
  {
  }

  /** No part that `split` yields contains the separator. */
  lemma {:induction false} SplitPartsSeparatorFree(s: string, sep: string)
    requires |sep| > 0
    ensures forall p :: p in Split(s, sep) ==> !Contains(p, sep)
    decreases |s|
  {
    match FindFrom(s, sep, 0)
    case None =>
      assert Split(s, sep) == [s];
      forall k: nat | k <= |s|
        ensures !OccursAt(s, sep, k)
      {
      }
    case Some(i) =>
      var rest := s[i + |sep|..];
      SplitPartsSeparatorFree(rest, sep);
      var head := s[..i];
      forall k: nat | k <= |head|
        ensures !OccursAt(head, sep, k)
      {
        if k + |sep| <= |head| {
          assert head[k..k + |sep|] == s[k..k + |sep|];
          NoOccurrenceBefore(s, sep, i, k);
        }
      }
      assert Split(s, sep) == [head] + Split(rest, sep);
  }

  /** Splitting a joined list gives the list back, provided no part contains
      the separator's first character (so no occurrence can straddle a
      boundary). */
  lemma {:induction false} SplitJoin(parts: seq<string>, sep: string)
    requires |sep| > 0 && |parts| >= 1
    requires forall p :: p in parts ==> sep[0] !in p
    ensures Split(Join(parts, sep), sep) == parts
    decreases |parts|
  {
    var s := Join(parts, sep);
    var p0 := parts[0];
    if |parts| == 1 {
      assert s == p0;
      forall k: nat
        ensures !OccursAt(s, sep, k)
      {
        if k + |sep| <= |s| {
          assert s[k] == p0[k] && p0[k] in p0;
          assert s[k..k + |sep|][0] != sep[0];
        }
      }
      assert FindFrom(s, sep, 0).None?;
    } else {
      var tail := Join(parts[1..], sep);
      assert s == p0 + sep + tail;
      assert s[|p0|..|p0| + |sep|] == sep;
      assert OccursAt(s, sep, |p0|);
      forall k: nat | k < |p0|
        ensures !OccursAt(s, sep, k)
      {
        assert s[k] == p0[k] && p0[k] in p0;
        if k + |sep| <= |s| {
          assert s[k..k + |sep|][0] != sep[0];
        }
      }
      assert FindFrom(s, sep, 0) == Some(|p0|);
      assert s[..|p0|] == p0;
      assert s[|p0| + |sep|..] == tail;
      assert Split(s, sep) == [p0] + Split(tail, sep);
      SplitJoin(parts[1..], sep);
      assert parts == [p0] + parts[1..];
    }
  }

  /** When the separator is a single character, splitting `a + sep + b`
      where `a` is free of it puts `a` first and continues with `b`. */
  lemma SplitAfterHead(a: string, sep: char, b: string)
    requires sep !in a
    ensures Split(a + [sep] + b, [sep]) == [a] + Split(b, [sep])
  {
    var s := a + [sep] + b;
    assert s[|a|..|a| + 1] == [sep];
    assert OccursAt(s, [sep], |a|);
    forall k: nat | k < |a|
      ensures !OccursAt(s, [sep], k)
    {
      assert s[k] == a[k];
      assert s[k..k + 1] == [s[k]];
    }
    assert FindFrom(s, [sep], 0) == Some(|a|);
    assert s[..|a|] == a;
    assert s[|a| + 1..] == b;
  }

  /** The first part that splitting on a single character yields is the
      longest prefix free of that character. */
  lemma SplitHeadIsPrefix(s: string, c: char)
    ensures var p := Split(s, [c])[0];
      && StartsWith(s, p) && c !in p && (|p| < |s| ==> s[|p|] == c)
  {
    var p := Split(s, [c])[0];
    match FindFrom(s, [c], 0)
    case None =>
      assert p == s;
      forall k | 0 <= k < |s|
        ensures s[k] != c
      {
        assert !OccursAt(s, [c], k);
        assert s[k..k + 1] == [s[k]];
      }
    case Some(i) =>
      assert p == s[..i];
      assert s[i..i + 1] == [c];
      forall k | 0 <= k < i
        ensures s[k] != c
      {
        NoOccurrenceBefore(s, [c], i, k);
        assert s[k..k + 1] == [s[k]];
      }
  }

  /** A string free of the separator's first character splits into itself. */
  lemma SplitWithoutSeparator(s: string, sep: string)
    requires |sep| > 0 && sep[0] !in s
    ensures Split(s, sep) == [s]
  {
    SplitJoin([s], sep);
  }

  function LowerChar(c: char): (r: char)
    ensures 'A' <= c <= 'Z' ==> 'a' <= r <= 'z'
    ensures !('A' <= c <= 'Z') ==> r == c
  {
    if 'A' <= c <= 'Z' then (c as int - 'A' as int + 'a' as int) as char else c
  }

  /** `s.toLowerCase()` restricted to ASCII letters. */
  function ToLower(s: string): (r: string)
    ensures |r| == |s|
    ensures forall i :: 0 <= i < |s| ==> r[i] == LowerChar(s[i])
  {
    if |s| == 0 then [] else [LowerChar(s[0])] + ToLower(s[1..])
  }

  /** The characters JavaScript's `\s` class matches. */
  predicate IsJsSpace(c: char) {
    c == ' ' || c == '\t' || c == '\n' || c == '\r' || c == '\U{000B}' || c == '\U{000C}'
    || c == '\U{00A0}' || c == '\U{1680}' || ('\U{2000}' <= c <= '\U{200A}')
    || c == '\U{2028}' || c == '\U{2029}' || c == '\U{202F}' || c == '\U{205F}'
    || c == '\U{3000}' || c == '\U{FEFF}'
  }
}

=== FILE: upload.dfy ===
/** The upload controller: the folder an upload is signed for, and the
    story feed a viewer gets (controllers/upload.controller.js). The feed
    shows, for each mutual contact with unexpired stories, at most the ten
    newest of them, oldest first, with the groups ordered by their newest
    story, and separately the viewer's own unexpired stories. */
module Upload {
  import opened Base
  import opened JsValues
  import opened Registry
  import opened Contacts
  import opened Schemas
  import opened Sorting

  // ---------------------------------------------------------------------
  // getSigned

  datatype SignResult =
    | NoUserId                          // 404 "userId required"
    | Signed(folder: string, timestamp: int)

  /** The upload folder is `<base>/<userId>`, where the base is the folder
      the client sent when that is truthy and the configured uploads folder
      otherwise (an unset variable renders as "undefined"). The timestamp is
      the current time in whole seconds, rounded down. `userId` is the
      authenticated user's id; a missing or empty id is a 404. */
  function GetSigned(userId: Option<UserId>, folder: JsVal, uploadsFolder: Option<string>, nowMs: int)
    : (r: SignResult)
    ensures r.NoUserId? <==> userId.None? || userId.value == ""
    ensures r.Signed? ==>
      var base := if Truthy(folder) then ToStr(folder) else uploadsFolder.GetOr("undefined");
      && |r.folder| == |base| + 1 + |userId.value|
      && r.folder[..|base|] == base
      && r.folder[|base|] == '/'
      && r.folder[|base| + 1..] == userId.value
    ensures r.Signed? ==> r.timestamp * 1000 <= nowMs < r.timestamp * 1000 + 1000
  {
    if userId.None? || userId.value == "" then NoUserId
    else
      var base := if Truthy(folder) then ToStr(folder) else uploadsFolder.GetOr("undefined");
      Signed(base + "/" + userId.value, nowMs / 1000)
  }

  /** The user id is the last path segment of the signed folder whenever
      the id itself has no slash, whatever folder the client asked for. */
  lemma SignedFolderEndsWithUser(userId: UserId, folder: JsVal, uploadsFolder: Option<string>, nowMs: int)
    requires userId != "" && '/' !in userId
    ensures var r := GetSigned(Some(userId), folder, uploadsFolder, nowMs);
      && r.Signed?
      && var k := |r.folder| - |userId| - 1;
      && 0 <= k && r.folder[k] == '/' && r.folder[k + 1..] == userId
      && (forall j :: k < j < |r.folder| ==> r.folder[j] != '/')
  {
    var r := GetSigned(Some(userId), folder, uploadsFolder, nowMs);
    var k := |r.folder| - |userId| - 1;
    forall j | k < j < |r.folder|
      ensures r.folder[j] != '/'
    {
      assert r.folder[j] == r.folder[k + 1..][j - k - 1];
    }
  }

  // ---------------------------------------------------------------------
  // getStatuses

  /** The part of a user's profile the feed shows. */
  datatype Profile = Profile(displayName: JsVal, profilePic: JsVal)

  /** One mutual contact's entry in the feed. */
  datatype Group = Group(
    owner: UserId,
    displayName: JsVal,
    profilePic: JsVal,
    latest: int,
    total: nat,
    statuses: seq<Story>)

  datatype Feed = Feed(mine: seq<Story>, visible: seq<Group>)

  /** At most this many stories per contact are shown. */
  const GroupCap: nat := 10

  /** Sort key for "newest first" (`createdAt: -1`). */
  function NewestFirst(s: Story): int {
    -s.createdAt
  }

  /** Sort key for "oldest first". */
  function OldestFirst(s: Story): int {
    s.createdAt
  }

  /** Sort key for groups with the most recent story first (`latest: -1`). */
  function LatestFirst(g: Group): int {
    -g.latest
  }

  /** The unexpired stories of `owner`, in storage order. */
  function ActiveOf(statuses: seq<Story>, owner: UserId, now: int): (r: seq<Story>)
    ensures forall s :: s in r <==> s in statuses && s.userId == owner && s.expiresAt > now
    ensures multiset(r) <= multiset(statuses)
  {
    if |statuses| == 0 then []
    else
      assert statuses == [statuses[0]] + statuses[1..];
      var rest := ActiveOf(statuses[1..], owner, now);
      if statuses[0].userId == owner && statuses[0].expiresAt > now then [statuses[0]] + rest else rest
  }

  /** The viewer's contacts: the distinct matched users of the viewer's
      unblocked edges. */
  function ViewerContacts(edges: seq<Edge>, viewer: UserId): (r: seq<UserId>)
    ensures NoDup(r)
    ensures forall v :: v in r <==> Adds(edges, viewer, v)
  {
    Distinct(TargetsOf(Filter(edges, (e: Edge) => e.owner == viewer && e.contactUser.Some? && !e.isBlocked)))
  }

  /** The owners, among `contacts`, of an unblocked edge pointing at the
      viewer. */
  function ContactsWhoAdded(edges: seq<Edge>, viewer: UserId, contacts: seq<UserId>): (r: seq<UserId>)
    ensures NoDup(r)
    ensures forall v :: v in r <==> v in contacts && Adds(edges, v, viewer)
  {
    Distinct(OwnersOf(Filter(edges, (e: Edge) =>
      e.owner in contacts && e.contactUser == Some(viewer) && !e.isBlocked)))
  }

  /** The feed's mutual contacts are exactly the viewer's mutual contacts. */
  lemma FeedMutualsAreMutual(edges: seq<Edge>, viewer: UserId)
    ensures forall v :: v in ContactsWhoAdded(edges, viewer, ViewerContacts(edges, viewer))
                    <==> IsMutual(edges, viewer, v)
  {
  }

  /** The viewer's own unexpired stories, newest first. */
  function Mine(statuses: seq<Story>, viewer: UserId, now: int): (r: seq<Story>)
    ensures SortedBy(r, NewestFirst)
    ensures multiset(r) == multiset(ActiveOf(statuses, viewer, now))
    ensures forall s :: s in r <==> s in statuses && s.userId == viewer && s.expiresAt > now
  {
    var active := ActiveOf(statuses, viewer, now);
    var r := SortBy(active, NewestFirst);
    assert forall s :: s in r <==> s in multiset(r);
    r
  }

  /** Of a newest-first sequence, the first `n` are at least as new as every
      element left out. */
  lemma TakeKeepsNewest(sorted: seq<Story>, n: nat, s: Story, t: Story)
    requires SortedBy(sorted, NewestFirst)
    requires s in sorted && s !in Take(sorted, n) && t in Take(sorted, n)
    ensures s.createdAt <= t.createdAt
  {
    var kept := Take(sorted, n);
    var rest := sorted[|kept|..];
    assert sorted == kept + rest;
    assert s in rest;
    var j :| 0 <= j < |rest| && rest[j] == s;
    var i :| 0 <= i < |kept| && kept[i] == t;
    assert sorted[i] == t && sorted[|kept| + j] == s;
    assert NewestFirst(sorted[i]) <= NewestFirst(sorted[|kept| + j]);
  }

  /** Reversing a newest-first sequence gives an oldest-first one. */
  lemma ReverseNewestIsOldest(s: seq<Story>)
    requires SortedBy(s, NewestFirst)
    ensures SortedBy(Reverse(s), OldestFirst)
  {
    var r := Reverse(s);
    forall i, j | 0 <= i < j < |r|
      ensures OldestFirst(r[i]) <= OldestFirst(r[j])
    {
      assert r[i] == s[|s| - 1 - i] && r[j] == s[|s| - 1 - j];
      assert NewestFirst(s[|s| - 1 - j]) <= NewestFirst(s[|s| - 1 - i]);
    }
  }

  /** The stories a group shows: at most `GroupCap` of the newest, oldest
      first (sort newest first, keep the first ten, reverse).
      `NewestSliceShape` states what it keeps. */
  function NewestSlice(active: seq<Story>): (shown: seq<Story>)
    ensures |shown| == if |active| < GroupCap then |active| else GroupCap
  {
    Reverse(Take(SortBy(active, NewestFirst), GroupCap))
  }

  /** The slice holds only given stories, oldest first, and none of them is
      older than a story left out. */
  lemma NewestSliceShape(active: seq<Story>)
    ensures var shown := NewestSlice(active);
      && (forall s :: s in shown ==> s in active)
      && SortedBy(shown, OldestFirst)
      && (forall s, t :: s in active && s !in shown && t in shown ==> s.createdAt <= t.createdAt)
  {
    var sorted := SortBy(active, NewestFirst);
    assert forall s :: s in sorted <==> s in active by {
      assert forall s :: s in sorted <==> s in multiset(sorted);
    }
    var kept := Take(sorted, GroupCap);
    assert SortedBy(kept, NewestFirst) && (forall s :: s in kept ==> s in sorted) by {
      assert kept == sorted[..|kept|];
    }
    var shown := Reverse(kept);
    assert forall s :: s in shown <==> s in kept by {
      ReverseMultiset(kept);
      assert forall s :: s in shown <==> s in multiset(shown);
      assert forall s :: s in kept <==> s in multiset(kept);
    }
    ReverseNewestIsOldest(kept);
    forall s, t | s in active && s !in shown && t in shown
      ensures s.createdAt <= t.createdAt
    {
      TakeKeepsNewest(sorted, GroupCap, s, t);
    }
  }

  /** The creation time of the first story in newest-first order
      (`$first` of `createdAt`). `LatestIsNewest` states its meaning. */
  function Latest(active: seq<Story>): int
    requires |active| > 0
  {
    SortBy(active, NewestFirst)[0].createdAt
  }

  /** The group's `latest` is the newest creation time among its stories. */
  lemma LatestIsNewest(active: seq<Story>)
    requires |active| > 0
    ensures forall s :: s in active ==> s.createdAt <= Latest(active)
    ensures exists s :: s in active && s.createdAt == Latest(active)
  {
    var sorted := SortBy(active, NewestFirst);
    assert forall s :: s in sorted <==> s in active by {
      assert forall s :: s in sorted <==> s in multiset(sorted);
    }
    assert sorted[0] in sorted;
    forall s | s in active
      ensures s.createdAt <= sorted[0].createdAt
    {
      var j :| 0 <= j < |sorted| && sorted[j] == s;
      assert j == 0 || NewestFirst(sorted[0]) <= NewestFirst(sorted[j]);
    }
  }

  /** The display name shown for a contact: the profile's name when it is
      truthy, "Unknown" otherwise (no profile, or an empty name). */
  function DisplayName(profiles: map<UserId, Profile>, owner: UserId): (r: JsVal)
    ensures Truthy(r)
    ensures owner in profiles && Truthy(profiles[owner].displayName) ==> r == profiles[owner].displayName
    ensures !(owner in profiles && Truthy(profiles[owner].displayName)) ==> r == Str("Unknown")
  {
    if owner in profiles && Truthy(profiles[owner].displayName) then profiles[owner].displayName
    else Str("Unknown")
  }

  /** The picture shown for a contact: the profile's picture when truthy,
      `null` otherwise. */
  function ProfilePic(profiles: map<UserId, Profile>, owner: UserId): (r: JsVal)
    ensures r == Null || Truthy(r)
    ensures r == Null <==> !(owner in profiles && Truthy(profiles[owner].profilePic))
    ensures owner in profiles && Truthy(profiles[owner].profilePic) ==> r == profiles[owner].profilePic
  {
    if owner in profiles && Truthy(profiles[owner].profilePic) then profiles[owner].profilePic
    else Null
  }

  /** The feed entry of one contact; only contacts with at least one
      unexpired story get one. `GroupShape` states what it holds. */
  function MakeGroup(statuses: seq<Story>, owner: UserId, profiles: map<UserId, Profile>, now: int)
    : (g: Group)
    ensures g.owner == owner && g.total == |ActiveOf(statuses, owner, now)|
  {
    var active := ActiveOf(statuses, owner, now);
    Group(owner, DisplayName(profiles, owner), ProfilePic(profiles, owner),
          if |active| == 0 then 0 else Latest(active), |active|, NewestSlice(active))
  }

  /** A contact's group counts all of the contact's unexpired stories,
      shows at most `GroupCap` of them, only unexpired stories of that
      contact, oldest first, none older than a story left out, and carries
      the newest creation time among them. */
  lemma GroupShape(statuses: seq<Story>, owner: UserId, profiles: map<UserId, Profile>, now: int)
    requires |ActiveOf(statuses, owner, now)| > 0
    ensures var g := MakeGroup(statuses, owner, profiles, now);
      var active := ActiveOf(statuses, owner, now);
      && g.total == |active|
      && |g.statuses| == (if g.total < GroupCap then g.total else GroupCap)
      && (forall s :: s in g.statuses ==> s in statuses && s.userId == owner && s.expiresAt > now)
      && SortedBy(g.statuses, OldestFirst)
      && (forall s, t :: s in active && s !in g.statuses && t in g.statuses ==> s.createdAt <= t.createdAt)
      && (forall s :: s in active ==> s.createdAt <= g.latest)
      && (exists s :: s in active && s.createdAt == g.latest)
      && g.displayName == DisplayName(profiles, owner)
      && g.profilePic == ProfilePic(profiles, owner)
  {
    NewestSliceShape(ActiveOf(statuses, owner, now));
    LatestIsNewest(ActiveOf(statuses, owner, now));
  }

  /** Whether `owner` has an unexpired story and so a group in the feed. */
  predicate HasActive(statuses: seq<Story>, owner: UserId, now: int) {
    |ActiveOf(statuses, owner, now)| > 0
  }

  /** The feed computed from the mutual contacts: one group for each of
      them with an unexpired story, ordered by their newest story, most
      recent first. */
  function VisibleGroups(statuses: seq<Story>, mutuals: seq<UserId>, profiles: map<UserId, Profile>, now: int)
    : (r: seq<Group>)
    requires NoDup(mutuals)
    ensures SortedBy(r, LatestFirst)
    ensures forall i :: 0 <= i < |r| ==>
              r[i].owner in mutuals && HasActive(statuses, r[i].owner, now)
              && r[i] == MakeGroup(statuses, r[i].owner, profiles, now)
    ensures forall o :: o in mutuals && HasActive(statuses, o, now) ==>
              exists i :: 0 <= i < |r| && r[i].owner == o
    ensures forall i, j :: 0 <= i < j < |r| ==> r[i].owner != r[j].owner
  {
    var shown := Filter(mutuals, (o: UserId) => HasActive(statuses, o, now));
    NoDupPermutation(mutuals, shown);
    var groups := MapSeq(shown, (o: UserId) => MakeGroup(statuses, o, profiles, now));
    var r := SortBy(groups, LatestFirst);
    assert NoDup(groups) by {
      forall i, j | 0 <= i < j < |groups|
        ensures groups[i] != groups[j]
      {
        assert groups[i].owner == shown[i] && groups[j].owner == shown[j];
      }
    }
    NoDupPermutation(groups, r);
    forall i | 0 <= i < |r|
      ensures r[i].owner in mutuals && HasActive(statuses, r[i].owner, now)
      ensures r[i] == MakeGroup(statuses, r[i].owner, profiles, now)
    {
      var k := Counterpart(r, groups, i);
      assert shown[k] in shown;
    }
    forall o | o in mutuals && HasActive(statuses, o, now)
      ensures exists i :: 0 <= i < |r| && r[i].owner == o
    {
      assert o in shown;
      var k := IndexOf(shown, o);
      assert k < |groups|;
      var i := Counterpart(groups, r, k);
      assert r[i].owner == o;
    }
    forall i, j | 0 <= i < j < |r|
      ensures r[i].owner != r[j].owner
    {
      assert r[i] != r[j];
    }
    r
  }

  /** `getStatuses` as written: when the viewer has no contacts, or no
      contact has added the viewer back, it answers before computing the
      viewer's own stories and so reports `mine` as empty. */
  function GetStatusesAsWritten(edges: seq<Edge>, statuses: seq<Story>, profiles: map<UserId, Profile>,
                                viewer: UserId, now: int)
    : (r: Feed)
    ensures forall g :: g in r.visible ==> IsMutual(edges, viewer, g.owner)
    ensures (forall v :: !IsMutual(edges, viewer, v)) ==> r.mine == [] && r.visible == []
    ensures (exists v :: IsMutual(edges, viewer, v)) ==> r.mine == Mine(statuses, viewer, now)
  {
    var contacts := ViewerContacts(edges, viewer);
    if |contacts| == 0 then Feed([], [])
    else
      var mutuals := ContactsWhoAdded(edges, viewer, contacts);
      FeedMutualsAreMutual(edges, viewer);
      if |mutuals| == 0 then
        assert forall v :: v !in mutuals;
        Feed([], [])
      else
        assert mutuals[0] in mutuals;
        Feed(Mine(statuses, viewer, now), VisibleGroups(statuses, mutuals, profiles, now))
  }

  /** `getStatuses` with the viewer's own stories always computed: the
      groups of exactly the mutual contacts that have unexpired stories,
      most recent first, one group per contact, plus the viewer's own
      unexpired stories. */
  function GetStatuses(edges: seq<Edge>, statuses: seq<Story>, profiles: map<UserId, Profile>,
                       viewer: UserId, now: int)
    : (r: Feed)
    ensures r.mine == Mine(statuses, viewer, now)
    ensures forall g :: g in r.visible ==>
              && IsMutual(edges, viewer, g.owner) && HasActive(statuses, g.owner, now)
              && g == MakeGroup(statuses, g.owner, profiles, now)
    ensures forall o :: IsMutual(edges, viewer, o) && HasActive(statuses, o, now) ==>
              MakeGroup(statuses, o, profiles, now) in r.visible
    ensures SortedBy(r.visible, LatestFirst)
    ensures forall i, j :: 0 <= i < j < |r.visible| ==> r.visible[i].owner != r.visible[j].owner
  {
    var mutuals := ContactsWhoAdded(edges, viewer, ViewerContacts(edges, viewer));
    FeedMutualsAreMutual(edges, viewer);
    Feed(Mine(statuses, viewer, now), VisibleGroups(statuses, mutuals, profiles, now))
  }

  /** Where a mutual contact exists the two versions agree; they differ only
      in the early answers. */
  lemma AsWrittenAgreesWithMutuals(edges: seq<Edge>, statuses: seq<Story>, profiles: map<UserId, Profile>,
                                   viewer: UserId, now: int)
    requires exists v :: IsMutual(edges, viewer, v)
    ensures GetStatusesAsWritten(edges, statuses, profiles, viewer, now)
         == GetStatuses(edges, statuses, profiles, viewer, now)
  {
    var v :| IsMutual(edges, viewer, v);
    var contacts := ViewerContacts(edges, viewer);
    assert v in contacts;
    FeedMutualsAreMutual(edges, viewer);
    assert v in ContactsWhoAdded(edges, viewer, contacts);
  }

  /** A viewer without contacts who posted a story that has not expired:
      the as-written answer hides the story from its own author. */
  lemma AsWrittenHidesOwnStory()
    ensures var own := Story("s1", "A", "p1", "https://res.cloudinary.com/x.jpg", None, "image", "", 0, 100, []);
      && GetStatusesAsWritten([], [own], map[], "A", 50).mine == []
      && GetStatuses([], [own], map[], "A", 50).mine == [own]
  {
    var own := Story("s1", "A", "p1", "https://res.cloudinary.com/x.jpg", None, "image", "", 0, 100, []);
    assert ViewerContacts([], "A") == [];
    var m := Mine([own], "A", 50);
    assert own in m;
    assert |m| == 1 by {
      assert |multiset(m)| == |multiset(ActiveOf([own], "A", 50))|;
    }
    assert m[0] == own;
  }
}

=== FILE: users.dfy ===
/** The decision logic of the account endpoints in
    controllers/users.controller.js: the one-time-password check with its
    store, the registration input checks (including the email pattern), and
    the two ways a token is taken from a request (the refresh-token cookie
    and the `Authorization: Bearer` header). Token signatures, token
    issuance and the user collection are parameters. The contact-edge
    endpoints of the same file are in the `Contacts` module. */
module Users {
  import opened Base
  import opened JsValues
  import opened Text

  // ---------------------------------------------------------------------
  // verifyOTP

  /** The one-time passwords waiting to be used, keyed `otp:<email>`. */
  type OtpStore = map<string, string>

  function OtpKey(email: string): string {
    "otp:" + email
  }

  datatype OtpReply =
    | MissingParams                       // 400 "Missing required parameters"
    | InvalidToken                        // 500 "Invalid Token"
    | ExpiredOtp                          // 401 "Invalid or expired otp"
    | IncorrectOtp                        // 401 "Incorrect OTP"
    | OtpValid(email: string, hashedEmail: string, isNewUser: bool, tokensIssued: bool)

  /** A reply, the password store after it, and whether the response sets
      the `refreshToken` cookie. */
  datatype OtpOutcome = OtpOutcome(reply: OtpReply, store: OtpStore, cookie: bool)

  /** The steps of `verifyOTP` in the order the handler takes them, with
      the cookie decided where the handler decides it: right after the
      signature check and the user lookup, before the stored password is
      read. `verify` is the signature check (`None` when it throws) and
      yields the email it signs; `registered` holds the emails of existing
      users. The cookie is therefore set on the two 401 replies as well as
      on success whenever the signed email belongs to a user. */
  function VerifyOtpAsWritten(otp: JsVal, email: JsVal, store: OtpStore,
                              verify: string -> Option<string>, registered: set<string>)
    : (r: OtpOutcome)
    ensures r.cookie ==> email.Str? && verify(email.s).Some? && verify(email.s).value in registered
  {
    if !Truthy(otp) || !Truthy(email) then OtpOutcome(MissingParams, store, false)
    else if !email.Str? || verify(email.s).None? then OtpOutcome(InvalidToken, store, false)
    else
      var verified := verify(email.s).value;
      var isNewUser := verified in registered;
      var cookie := isNewUser;
      var key := OtpKey(email.s);
      if key !in store || store[key] == "" then OtpOutcome(ExpiredOtp, store, cookie)
      else if otp == Str(store[key]) then
        OtpOutcome(OtpValid(email.s, verified, isNewUser, isNewUser), store - {key}, cookie)
      else OtpOutcome(IncorrectOtp, store, cookie)
  }

  /** `verifyOTP` with the cookie set only on the reply that hands out the
      tokens. The reply flag `isNewUser` is set, and tokens are issued, when
      a user with that email already exists. A matching password is
      deleted; anything else leaves the store as it was. */
  function VerifyOtp(otp: JsVal, email: JsVal, store: OtpStore,
                     verify: string -> Option<string>, registered: set<string>)
    : (r: OtpOutcome)
    ensures r.reply.MissingParams? <==> !Truthy(otp) || !Truthy(email)
    ensures r.reply.InvalidToken? <==>
      Truthy(otp) && Truthy(email) && !(email.Str? && verify(email.s).Some?)
    ensures r.reply.OtpValid? <==>
      && Truthy(otp) && email.Str? && email.s != "" && verify(email.s).Some?
      && OtpKey(email.s) in store && store[OtpKey(email.s)] != ""
      && otp == Str(store[OtpKey(email.s)])
    ensures r.reply.ExpiredOtp? <==>
      && Truthy(otp) && email.Str? && email.s != "" && verify(email.s).Some?
      && (OtpKey(email.s) !in store || store[OtpKey(email.s)] == "")
    ensures r.reply.IncorrectOtp? <==>
      && Truthy(otp) && email.Str? && email.s != "" && verify(email.s).Some?
      && OtpKey(email.s) in store && store[OtpKey(email.s)] != ""
      && otp != Str(store[OtpKey(email.s)])
    ensures r.reply.OtpValid? ==>
      && r.reply.email == email.s
      && r.reply.hashedEmail == verify(email.s).value
      && (r.reply.isNewUser <==> verify(email.s).value in registered)
      && r.reply.tokensIssued == r.reply.isNewUser
      && r.store == store - {OtpKey(email.s)}
    ensures !r.reply.OtpValid? ==> r.store == store
    ensures r.cookie <==> r.reply.OtpValid? && r.reply.tokensIssued
  {
    if !Truthy(otp) || !Truthy(email) then OtpOutcome(MissingParams, store, false)
    else if !email.Str? || verify(email.s).None? then OtpOutcome(InvalidToken, store, false)
    else
      var verified := verify(email.s).value;
      var isNewUser := verified in registered;
      var key := OtpKey(email.s);
      if key !in store || store[key] == "" then OtpOutcome(ExpiredOtp, store, false)
      else if otp == Str(store[key]) then
        OtpOutcome(OtpValid(email.s, verified, isNewUser, isNewUser), store - {key}, isNewUser)
      else OtpOutcome(IncorrectOtp, store, false)
  }

  /** The handler as written and the corrected one give the same reply and
      leave the same store; they differ in the cookie alone, which the
      handler as written sets on every reply that follows a good signature
      when the user exists. */
  lemma AsWrittenDiffersOnlyInCookie(otp: JsVal, email: JsVal, store: OtpStore,
                                     verify: string -> Option<string>, registered: set<string>)
    ensures var w := VerifyOtpAsWritten(otp, email, store, verify, registered);
      var c := VerifyOtp(otp, email, store, verify, registered);
      && w.reply == c.reply && w.store == c.store
      && (w.cookie <==> (c.reply.ExpiredOtp? || c.reply.IncorrectOtp? || c.reply.OtpValid?)
                        && verify(email.s).value in registered)
      && (c.cookie ==> w.cookie)
  {
  }

  /** A wrong password for an existing user is refused with 401, and the
      handler as written still sets the refresh-token cookie on that
      refusal; the corrected handler does not. */
  lemma AsWrittenCookieOnWrongOtp()
    ensures var w := VerifyOtpAsWritten(Str("999"), Str("a@b.c"), map["otp:a@b.c" := "123"],
                                        s => Some(s), {"a@b.c"});
      w.reply == IncorrectOtp && w.cookie
    ensures var c := VerifyOtp(Str("999"), Str("a@b.c"), map["otp:a@b.c" := "123"],
                               s => Some(s), {"a@b.c"});
      c.reply == IncorrectOtp && !c.cookie
  {
    var store := map["otp:a@b.c" := "123"];
    assert OtpKey("a@b.c") == "otp:a@b.c";
    assert Str("999") != Str(store["otp:a@b.c"]);
  }

  /** A password works once: repeating a successful request finds nothing
      stored and is refused as expired. */
  lemma OtpSingleUse(otp: JsVal, email: JsVal, store: OtpStore,
                     verify: string -> Option<string>, registered: set<string>)
    requires VerifyOtp(otp, email, store, verify, registered).reply.OtpValid?
    ensures var after := VerifyOtp(otp, email, store, verify, registered).store;
      VerifyOtp(otp, email, after, verify, registered).reply == ExpiredOtp
  {
  }

  /** A wrong password can be retried: the stored one stays and the right
      one is still accepted afterwards. */
  lemma OtpRetryAfterMismatch(wrong: JsVal, otp: JsVal, email: JsVal, store: OtpStore,
                              verify: string -> Option<string>, registered: set<string>)
    requires VerifyOtp(wrong, email, store, verify, registered).reply == IncorrectOtp
    requires VerifyOtp(otp, email, store, verify, registered).reply.OtpValid?
    ensures var after := VerifyOtp(wrong, email, store, verify, registered).store;
      VerifyOtp(otp, email, after, verify, registered).reply.OtpValid?
  {
  }

  // ---------------------------------------------------------------------
  // register

  /** Characters other than `@` and JavaScript white space. */
  predicate EmailChar(c: char) {
    c != '@' && !IsJsSpace(c)
  }

  /** `/^[^\s@]+@[^\s@]+\.[^\s@]+$/`: one `@` that is not the first
      character, a `.` at least two characters after it and before the last
      character, and no white space or other `@` anywhere. */
  ghost predicate EmailPattern(s: string) {
    exists i, j :: 0 < i && i + 1 < j && j + 1 < |s| && s[i] == '@' && s[j] == '.' && EmailCharsBut(s, i)
  }

  /** Every character except the one at `i` is an `EmailChar`. */
  predicate EmailCharsBut(s: string, i: int) {
    forall k :: 0 <= k < |s| && k != i ==> EmailChar(s[k])
  }

  /** Decides `EmailPattern` in two passes: find the `@` and reject white
      space and extra `@`s, then look for a `.` in the allowed range. */
  method MatchesEmailPattern(s: string) returns (ok: bool)
    ensures ok <==> EmailPattern(s)
  {
    var at := -1;
    var many := false;
    var clean := true;
    ghost var other := -1;
    for k := 0 to |s|
      invariant -1 <= at < k
      invariant at >= 0 ==> s[at] == '@'
      invariant at == -1 ==> forall m :: 0 <= m < k ==> s[m] != '@'
      invariant !many ==> forall m :: 0 <= m < k && s[m] == '@' ==> m == at
      invariant many ==> 0 <= other < k && s[other] == '@' && other != at && at >= 0
      invariant clean <==> forall m :: 0 <= m < k ==> !IsJsSpace(s[m])
    {
      if s[k] == '@' {
        if at >= 0 {
          many := true;
          other := at;
        }
        at := k;
      } else if IsJsSpace(s[k]) {
        clean := false;
      }
    }
    if many || !clean || at <= 0 {
      ok := false;
      if many {
        forall i | 0 <= i < |s|
          ensures !EmailCharsBut(s, i)
        {
          if other != i {
            assert !EmailChar(s[other]);
          } else {
            assert !EmailChar(s[at]);
          }
        }
      } else if !clean {
        var m :| 0 <= m < |s| && IsJsSpace(s[m]);
        assert !EmailChar(s[m]);
      }
      return;
    }
    var found := false;
    ghost var dot := -1;
    var j := at + 2;
    while j < |s| - 1
      invariant at + 2 <= j
      invariant found ==> at + 2 <= dot < |s| - 1 && s[dot] == '.'
      invariant !found ==> forall m :: at + 2 <= m < j && m < |s| - 1 ==> s[m] != '.'
      decreases |s| - j
    {
      if s[j] == '.' {
        found := true;
        dot := j;
      }
      j := j + 1;
    }
    ok := found;
    if found {
      assert 0 < at && at + 1 < dot && dot + 1 < |s| && s[at] == '@' && s[dot] == '.';
      assert EmailCharsBut(s, at);
    } else {
      forall i, d | 0 < i && i + 1 < d && d + 1 < |s| && s[i] == '@'
        ensures s[d] != '.'
      {
        assert i == at;
      }
    }
  }

  datatype RegisterReply =
    | MissingFields(displayNameMissing: bool, emailMissing: bool)  // 400
    | InvalidEmailFormat                                         // 400
    | CreateUser(email: string, displayName: JsVal)              // the profile to create

  /** `register`'s checks. The email may arrive signed (then `verify`
      yields the signed value) or in clear (`verify` throws and the value is
      used as it came); either way it must be a string of the email
      pattern. */
  method Register(email: JsVal, displayName: JsVal, verify: string -> Option<JsVal>)
    returns (r: RegisterReply)
    ensures r.MissingFields? <==> !Truthy(email) || !Truthy(displayName)
    ensures r.MissingFields? ==>
      r.displayNameMissing == !Truthy(displayName) && r.emailMissing == !Truthy(email)
    ensures var verified := if email.Str? && verify(email.s).Some? then verify(email.s).value else email;
      && (r.CreateUser? <==>
            Truthy(email) && Truthy(displayName) && verified.Str? && EmailPattern(verified.s))
      && (r.CreateUser? ==> r.email == verified.s && r.displayName == displayName)
  {
    if !Truthy(email) || !Truthy(displayName) {
      return MissingFields(!Truthy(displayName), !Truthy(email));
    }
    var verified := if email.Str? && verify(email.s).Some? then verify(email.s).value else email;
    if !verified.Str? {
      return InvalidEmailFormat;
    }
    var ok := MatchesEmailPattern(verified.s);
    if !ok {
      return InvalidEmailFormat;
    }
    return CreateUser(verified.s, displayName);
  }

  /** A few addresses against the pattern. */
  lemma EmailPatternExamples()
    ensures EmailPattern("a@b.co")
    ensures !EmailPattern("a@b.c d")
  {
    var s := "a@b.co";
    assert 0 < 1 && 1 + 1 < 3 && 3 + 1 < |s| && s[1] == '@' && s[3] == '.';
    assert EmailCharsBut(s, 1);
    var t := "a@b.c d";
    assert IsJsSpace(t[5]);
  }

  // ---------------------------------------------------------------------
  // refreshToken and fetchUser

  /** What the signature check makes of a token. */
  datatype TokenCheck = Valid(email: string) | Expired | Invalid

  const RefreshCookie := "refreshToken="

  /** The first of `parts` that starts with `prefix`. */
  function FirstWithPrefix(parts: seq<string>, prefix: string): (r: Option<string>)
    ensures r.Some? ==> r.value in parts && StartsWith(r.value, prefix)
    ensures r.None? <==> forall p :: p in parts ==> !StartsWith(p, prefix)
    ensures r.Some? ==> exists i :: 0 <= i < |parts| && parts[i] == r.value
                                    && forall k :: 0 <= k < i ==> !StartsWith(parts[k], prefix)
  {
    if |parts| == 0 then None
    else if StartsWith(parts[0], prefix) then Some(parts[0])
    else
      var r := FirstWithPrefix(parts[1..], prefix);
      assert forall p :: p in parts <==> p == parts[0] || p in parts[1..];
      if r.Some? then
        var i :| 0 <= i < |parts[1..]| && parts[1..][i] == r.value
                 && forall k :: 0 <= k < i ==> !StartsWith(parts[1..][k], prefix);
        assert parts[i + 1] == r.value;
        assert forall k :: 1 <= k < i + 1 ==> parts[k] == parts[1..][k - 1];
        r
      else r
  }

  /** The part at `i` is the first with the prefix. */
  lemma {:induction false} FirstWithPrefixAt(parts: seq<string>, prefix: string, i: nat)
    requires i < |parts| && StartsWith(parts[i], prefix)
    requires forall k :: 0 <= k < i ==> !StartsWith(parts[k], prefix)
    ensures FirstWithPrefix(parts, prefix) == Some(parts[i])
  {
    if i > 0 {
      assert forall k :: 0 <= k < i - 1 ==> parts[1..][k] == parts[k + 1];
      FirstWithPrefixAt(parts[1..], prefix, i - 1);
    }
  }

  /** `entry.split("=")[1]` for an entry starting with "refreshToken=":
      what follows the `=` up to the next one. */
  function CookieValue(entry: string): (v: string)
    requires StartsWith(entry, RefreshCookie)
    ensures '=' !in v && StartsWith(entry, RefreshCookie + v)
    ensures |RefreshCookie + v| < |entry| ==> entry[|RefreshCookie + v|] == '='
  {
    var rest := entry[|RefreshCookie|..];
    assert entry == "refreshToken" + "=" + rest;
    SplitAfterHead("refreshToken", '=', rest);
    var v := Split(entry, "=")[1];
    assert v == Split(rest, "=")[0];
    SplitHeadIsPrefix(rest, '=');
    assert entry[..|RefreshCookie + v|] == RefreshCookie + v;
    v
  }

  /** A value without `=` is read back whole. */
  lemma CookieValueRoundTrip(token: string)
    requires '=' !in token
    ensures CookieValue(RefreshCookie + token) == token
  {
    var entry := RefreshCookie + token;
    assert entry[|RefreshCookie|..] == token;
    assert entry == "refreshToken" + "=" + token;
    SplitAfterHead("refreshToken", '=', token);
    SplitWithoutSeparator(token, "=");
  }

  /** The refresh token read from a raw `Cookie` header: split on "; ",
      take the first entry starting with "refreshToken=", and keep what
      follows up to the next `=`. */
  function HeaderToken(header: Option<string>): (r: Option<string>)
    ensures r.Some? <==> header.Some? && FirstWithPrefix(Split(header.value, "; "), RefreshCookie).Some?
    ensures r.Some? ==> '=' !in r.value
    ensures r.Some? ==>
      var parts := Split(header.value, "; ");
      var n := |RefreshCookie + r.value|;
      exists i :: && 0 <= i < |parts|
                  && (forall k :: 0 <= k < i ==> !StartsWith(parts[k], RefreshCookie))
                  && StartsWith(parts[i], RefreshCookie + r.value)
                  && (n < |parts[i]| ==> parts[i][n] == '=')
  {
    if header.None? then None
    else match FirstWithPrefix(Split(header.value, "; "), RefreshCookie)
      case None => None
      case Some(entry) => Some(CookieValue(entry))
  }

  /** A cookie header of `name=value` entries joined with "; " yields the
      value of the first `refreshToken` entry, provided no entry holds a `;`
      and the token holds no `=`. */
  lemma HeaderTokenRoundTrip(before: seq<string>, token: string, after: seq<string>)
    requires forall p :: p in before ==> !StartsWith(p, RefreshCookie)
    requires forall p :: p in before + [RefreshCookie + token] + after ==> ';' !in p
    requires '=' !in token
    ensures HeaderToken(Some(Join(before + [RefreshCookie + token] + after, "; "))) == Some(token)
  {
    var parts := before + [RefreshCookie + token] + after;
    SplitJoin(parts, "; ");
    var entry := RefreshCookie + token;
    assert parts[|before|] == entry;
    forall k | 0 <= k < |before|
      ensures !StartsWith(parts[k], RefreshCookie)
    {
      assert parts[k] == before[k] && before[k] in before;
    }
    assert StartsWith(entry, RefreshCookie) by {
      assert entry[..|RefreshCookie|] == RefreshCookie;
    }
    FirstWithPrefixAt(parts, RefreshCookie, |before|);
    CookieValueRoundTrip(token);
  }

  /** The refresh token: the parsed cookie when it is a string, else the
      one in the raw header. */
  function RefreshTokenOf(cookie: JsVal, header: Option<string>): (r: Option<string>)
    ensures cookie.Str? ==> r == Some(cookie.s)
    ensures !cookie.Str? ==> r == HeaderToken(header)
  {
    if cookie.Str? then Some(cookie.s) else HeaderToken(header)
  }

  datatype AuthReply =
    | Unauthorized   // 401: header missing or malformed, token missing or expired
    | BadToken       // 500 "Invalid token"
    | UnknownUser    // 404 "User not found"
    | Authorized(email: string)

  /** `refreshToken`: a missing token or an expired one is a 401, another
      bad token a 500, an unknown email a 404. */
  function Refresh(cookie: JsVal, header: Option<string>, check: string -> TokenCheck, registered: set<string>)
    : (r: AuthReply)
    ensures RefreshTokenOf(cookie, header).None? ==> r == Unauthorized
    ensures RefreshTokenOf(cookie, header).Some? ==>
      var t := RefreshTokenOf(cookie, header).value;
      && (r == Unauthorized <==> check(t).Expired?)
      && (r == BadToken <==> check(t).Invalid?)
      && (r.Authorized? <==> check(t).Valid? && check(t).email in registered)
      && (r.Authorized? ==> r.email == check(t).email)
  {
    match RefreshTokenOf(cookie, header)
    case None => Unauthorized
    case Some(t) => CheckToken(t, check, registered)
  }

  /** The common tail of `refreshToken` and `fetchUser`: verify the token
      and look its email up. */
  function CheckToken(t: string, check: string -> TokenCheck, registered: set<string>): (r: AuthReply)
    ensures r == Unauthorized <==> check(t).Expired?
    ensures r == BadToken <==> check(t).Invalid?
    ensures r.Authorized? <==> check(t).Valid? && check(t).email in registered
    ensures r.Authorized? ==> r.email == check(t).email
  {
    match check(t)
    case Expired => Unauthorized
    case Invalid => BadToken
    case Valid(e) => if e in registered then Authorized(e) else UnknownUser
  }

  const BearerPrefix := "Bearer "

  /** The token of an `Authorization` header: it must start with "Bearer ",
      and the token is the text between the first and the second space,
      which must not be empty. */
  function BearerToken(header: Option<string>): (r: Option<string>)
    ensures r.Some? ==>
      && header.Some? && StartsWith(header.value, BearerPrefix + r.value)
      && r.value != "" && ' ' !in r.value
      && (|BearerPrefix + r.value| < |header.value| ==> header.value[|BearerPrefix + r.value|] == ' ')
    ensures header.None? || !StartsWith(header.value, BearerPrefix) ==> r.None?
  {
    if header.None? || !StartsWith(header.value, BearerPrefix) then None
    else
      var h := header.value;
      var rest := h[|BearerPrefix|..];
      assert h == "Bearer" + " " + rest;
      SplitAfterHead("Bearer", ' ', rest);
      var token := Split(h, " ")[1];
      assert token == Split(rest, " ")[0];
      SplitHeadIsPrefix(rest, ' ');
      if token == "" then None
      else
        assert h[..|BearerPrefix + token|] == BearerPrefix + token;
        Some(token)
  }

  /** "Bearer <token>" yields the token, whatever follows a further space. */
  lemma BearerRoundTrip(token: string, trailer: Option<string>)
    requires token != "" && ' ' !in token
    ensures var h := BearerPrefix + token + (if trailer.Some? then " " + trailer.value else "");
      BearerToken(Some(h)) == Some(token)
  {
    var tail := if trailer.Some? then " " + trailer.value else "";
    var h := BearerPrefix + token + tail;
    assert StartsWith(h, BearerPrefix);
    var rest := h[|BearerPrefix|..];
    assert rest == token + tail;
    assert h == "Bearer" + " " + rest;
    SplitAfterHead("Bearer", ' ', rest);
    if trailer.Some? {
      assert rest == token + [' '] + trailer.value;
      SplitAfterHead(token, ' ', trailer.value);
    } else {
      SplitWithoutSeparator(token, " ");
    }
  }

  /** `fetchUser`: a missing or malformed header, or an empty token, is a
      401 before any verification. */
  function FetchUser(header: Option<string>, check: string -> TokenCheck, registered: set<string>)
    : (r: AuthReply)
    ensures BearerToken(header).None? ==> r == Unauthorized
    ensures BearerToken(header).Some? ==> r == CheckToken(BearerToken(header).value, check, registered)
  {
    match BearerToken(header)
    case None => Unauthorized
    case Some(t) => CheckToken(t, check, registered)
  }
}
